=== FILE: README.md ===
# Serial power-supply drivers, modelled in Dafny

This project models the two serial drivers for a laboratory power supply of the
PS3005 family:

- the `PSU` class of `PSU.py`: every call writes its command once, then
  refreshes the cached status with `STATUS?`, `VSET1?` and `ISET1?`;
- the `LABPS3005DN` class of `PS3005.py`: every setting is repeated until the
  cached reply confirms it.

Both drivers share the fixed-width set-point codec (`value_to_fixed_width_string_v`
and `_i`, identical in both files), the command language with its `end_char`
terminator, the status-flag decoding and the sequence-file runner `follow_csv`.

Modules, in dependency order:

| file | module | contents |
|---|---|---|
| `outcomes.dfy` | `Outcomes` | `Option`, and `Run`: a Python call that returns or raises, keeping the object's state either way |
| `codec.dfy` | `Codec` | the set-point encoders, `float()` on a reply, round-trip and layout lemmas |
| `protocol.dfy` | `Protocol` | commands, framing, an abstract device behind a port that records every command written, status flags |
| `plan.dfy` | `Plan` | the calls `follow_csv` makes for a sequence file, and the 30 V / 5 A range checks |
| `psu.dfy` | `PsuDriver` | the `PSU` class |
| `lab.dfy` | `LabDriver` | the `LABPS3005DN` class |
| `bench.dfy` | `Bench` | a faithful instrument, and the `PSU` driver run against it |
| `lab_bench.dfy` | `LabBench` | the `LABPS3005DN` driver run against the same instrument |

Voltages are integers in 0.01 V and currents integers in 0.001 A, the
resolution of the device's replies. Every driver call is a pure function.
It takes a `Device` (how the instrument reacts to a command, and which line it
answers next) and the driver object, and returns a `Run`. The port inside the
object records each command written, so every contract can state the exact
command trace of a call. A general device can answer anything, so the
driver-level contracts say what holds whatever the device does: range checks,
traces, failure modes, and that nothing is written when it should not be. The
`Bench` instrument stores every setting and answers every query in the
expected format. The `*OnBench` lemmas state what the calls achieve on it:
settings reach the device, the cache reads them back, `find_voltage_battery`
leaves the device as it found it, and `follow_csv` ends with the output on and
the final row's set points.

## Model

| member | source | states |
|---|---|---|
| Codec.PadLeft | PSU.py:22 | `rjust(5, '0')`: a text at least as wide is unchanged; a shorter one becomes exactly the width, the fill character in front and the text itself at the end |
| Codec.EncodeVoltage | PSU.py:6-23 | the voltage text is never shorter than five characters |
| Codec.EncodeCurrent | PSU.py:26-43 | the current text is never shorter than five characters |
| Codec.VoltageLayout | PSU.py:6-23 | for 0.00 V to 99.99 V the text is exactly five characters: the four digits of the value with the point after the second (`dd.dd`) |
| Codec.CurrentLayout | PSU.py:26-43 | for 0.000 A to 9.999 A the text is exactly five characters in the `d.ddd` layout, and `rjust` adds nothing |
| Codec.EncodedRoundTrip | PSU.py:21-22 | the encoded text, zero padding and minus sign included, parses back to the value for every integer |
| Codec.VoltageRoundTrip | PSU.py:271-273 | the voltage text, and the reply line `text + "\n"`, read by `float()` give back the voltage that was encoded |
| Codec.CurrentRoundTrip | PSU.py:285-287 | the current text, and the reply line, read by `float()` give back the current that was encoded |
| Codec.CurrentEchoPrefix | PSU.py:458-465 | the check in `iset_func`: the first five bytes of the expected echo parse as the current that was set |
| Protocol.TextDecodes | PSU.py:209-211 | every command's bytes (`VSET1:` + encoding, `ISET1:` + encoding, the fixed queries) are read back as that command, so the bytes determine the command |
| Protocol.UnframeFrame | PSU.py:162-176 | `write_serial` appends `end_char`, and the terminator is recognised and removed again |
| Protocol.StatusFlags | PSU.py:319-333 | the call completes exactly when the status has three or more bytes; each flag is set exactly when its byte is 49; a shorter reply raises after updating the flags it reached |
| Protocol.RepliesDiffer | PS3005.py:193-198 | two echoes are equal exactly when the set points are, so comparing the cache with the expected echo compares set points |
| Plan.RowOpsAt | PSU.py:394-397 | one pass sets row j with calls 2j (`vset`) and 2j + 1 (`iset`), in file order |
| Plan.CsvPlanLength | PSU.py:389-397 | the plan is the three opening calls and two calls per row for each of the `repetitions` passes, and nothing else |
| Plan.CsvPlanAt | PSU.py:389-397 | the plan starts with `vset(0)`, `iset(0)`, `output_on()`; pass k sets row j at calls 3 + 2(k·rows + j) and the one after, for every pass and row; no call follows the last pass |
| Plan.CsvPlanLast | PSU.py:389-397 | the last call sets the final row's current once a pass runs, and is `output_on()` otherwise |
| Plan.CsvPlanNoPass | PSU.py:393-394 | with a repetition count of zero or less, or no rows, only the three opening calls are made |
| Plan.CsvPlanAdmissible | PSU.py:389-397 | a sequence file within 30 V and 5 A gives a plan whose every call passes the range checks |
| PsuDriver.GetStatus | PSU.py:290-302 | `get_status` writes exactly `STATUS?`, changes no cached attribute, and returns the line the device answers |
| PsuDriver.ReadNumber | PSU.py:271-273 | a query writes exactly its command and changes no cached attribute; its value is the device's reply read by `float()`, and it fails exactly when `float()` refuses that reply |
| PsuDriver.ReadFlags | PSU.py:319-333 | the status is stored and the flags are those the reply's bytes give; the call completes exactly when the reply has three bytes |
| PsuDriver.ReadSetPoints | PSU.py:335-336 | writes `VSET1?` then `ISET1?` (a prefix of them if a reply is not a number); leaves the status and flags as they were; completes exactly when both replies are numbers, and then `set_v` and `set_i` are the device's replies read by `float()` |
| PsuDriver.UpdateStatus | PSU.py:304-336 | writes a prefix of `STATUS?`, `VSET1?`, `ISET1?` and all three on success; the stored status is the device's reply; completes exactly when that reply has three bytes and both set-point replies are numbers; then the flags decode the status and `set_v`, `set_i` are the device's set-point replies; a short status raises after `STATUS?` alone |
| PsuDriver.Setting | PSU.py:213-214 | a setting call writes its command, then the refresh; on success exactly those four commands |
| PsuDriver.Vset | PSU.py:192-214 | raises before writing anything exactly when above 30 V (no lower bound); otherwise writes `VSET1:` and the refresh |
| PsuDriver.Iset | PSU.py:216-238 | raises before writing anything exactly when above 5 A (no lower bound); otherwise writes `ISET1:` and the refresh |
| PsuDriver.OutputOn | PSU.py:240-249 | always writes, beginning with `OUTPUT1`, then the refresh |
| PsuDriver.OutputOff | PSU.py:251-260 | always writes, beginning with `OUTPUT0`, then the refresh |
| PsuDriver.Probe | PSU.py:424-429 | writes the current limit, the safe voltage, `OUTPUT1` only if the output was off, then `VOUT1?`; out-of-range arguments raise |
| PsuDriver.PutBack | PSU.py:432-433 | writes the old voltage, then the old current, each with its refresh |
| PsuDriver.Restore | PSU.py:430-433 | writes `OUTPUT0` only if the output was off, then restores the voltage and then the current |
| PsuDriver.FindVoltageBattery | PSU.py:400-434 | out-of-range safe voltage or checking current raises; the loaded sequence is untouched |
| PsuDriver.Apply | PSU.py:389-397 | one `follow_csv` call: raises before writing anything exactly when out of range; in range it writes, its command and then the refresh |
| PsuDriver.Execute | PSU.py:389-397 | the calls in order; the trace is always a prefix of their commands and refreshes, which a run that raises stops part way through; on success every call was in range and the trace is all of them, in order |
| PsuDriver.FollowCsv | PSU.py:370-397 | without a loaded sequence nothing is written and nothing changes; otherwise the trace is a prefix of the plan's commands, and on success all of them |
| PsuDriver.PlanCommandsLength | PSU.py:213-214 | every completed call writes four commands |
| LabDriver.AwaitStatus | PS3005.py:262-265 | repeats `STATUS?` until the reply is non-empty: every reply before the last was empty, the stored status is the last reply, and the trace is exactly that many `STATUS?` |
| LabDriver.GetStatus | PS3005.py:251-284 | on success the status has three bytes, the flags decode it, and the trace is the waiting `STATUS?`s then `VSET1?`, `ISET1?`; the cached status and raw set-point replies are the lines the device answered, after all earlier status replies were empty; a reply of one or two bytes raises |
| LabDriver.Retry | PS3005.py:197-200 | nothing is written when the target already holds, and on success no attempt was made only then; the attempts replay as `LabDriver.Replay`: each began with the target not holding, wrote the command and completed a `get_status`, whose cache confirms the target after the last; the trace is those attempts |
| LabDriver.Vset | PS3005.py:177-200 | raises before writing exactly when above 30 V; writes nothing when the cache already holds the echo; on success every attempt wrote `VSET1:` and the cached `VSET1?` reply read by `get_status` is the echo of the value (`Replay`) |
| LabDriver.Iset | PS3005.py:202-225 | raises before writing exactly when above 5 A; writes nothing when the cache already holds the echo; on success every attempt wrote `ISET1:` and the cached `ISET1?` reply read by `get_status` is the echo of the value (`Replay`) |
| LabDriver.OutputOn | PS3005.py:227-237 | writes nothing when the output is already on; on success every attempt wrote `OUTPUT1` and the status read by `get_status` says on (`Replay`) |
| LabDriver.OutputOff | PS3005.py:239-249 | writes nothing when the output is already off; on success every attempt wrote `OUTPUT0` and the status read by `get_status` says off (`Replay`) |
| LabDriver.Apply | PS3005.py:299-307 | raises exactly when out of range; on success it made an attempt exactly when the setting was not confirmed beforehand, the attempts replay as `Replay` says, and the setting is confirmed |
| LabDriver.Execute | PS3005.py:299-307 | on success every call was in range, the calls replay one after another from where the previous one left the driver (`ReplayCalls`), the last call's setting is confirmed, and the trace is each call's attempts in order |
| LabDriver.FollowCsv | PS3005.py:293-307 | without a sequence nothing happens; on success the plan's calls replay one after another (`ReplayCalls`), the trace is their attempts in order, and the cache holds the final row's current echo once a pass runs, and the output is on otherwise |
| LabDriver.QuietCalls | PS3005.py:197-200 | calls that made no attempt wrote nothing, left the driver unchanged, and found every setting already confirmed, since a loop is entered exactly when its setting is not confirmed |
| Bench.GetVsetOnBench | PSU.py:262-274 | on the instrument, `get_vset` returns its set voltage and writes `VSET1?` |
| Bench.GetIsetOnBench | PSU.py:276-288 | on the instrument, `get_iset` returns its set current and writes `ISET1?` |
| Bench.GetVoutOnBench | PSU.py:342-354 | on the instrument, `get_vout` returns the battery voltage while on and 0 while off |
| Bench.UpdateStatusOnBench | PSU.py:304-336 | `update_status` completes and the cache then agrees with the instrument |
| Bench.SettingOnBench | PSU.py:213-214 | a setting reaches the instrument and the refresh reads it back |
| Bench.VsetOnBench | PSU.py:192-214 | `vset` within range changes only the instrument's voltage, and the cache reads it back |
| Bench.IsetOnBench | PSU.py:216-238 | `iset` within range changes only the instrument's current, and the cache reads it back |
| Bench.OutputOnBench | PSU.py:240-260 | `output_on` and `output_off` switch only the output flag, and the cache reads it back |
| Bench.ProbeOnBench | PSU.py:424-429 | probing holds the safe voltage and checking current with the output on, and returns the battery voltage |
| Bench.RestoreOnBench | PSU.py:430-433 | restoring puts back the output flag and both set points |
| Bench.FindVoltageBatteryOnBench | PSU.py:400-434 | returns the battery voltage and leaves the instrument exactly as found; writes `OUTPUT1`/`OUTPUT0` only when the output was off; the full trace is stated |
| Bench.FindVoltageBatteryDefaultsOnBench | PSU.py:400 | with the default 5 V and 0.001 A, the call returns the battery voltage and leaves the instrument as found |
| Bench.PassEffects | PSU.py:394-397 | one pass leaves the instrument on the last row's set points and changes nothing else |
| Bench.CsvEffects | PSU.py:389-397 | the calls of `follow_csv` leave the output on and the final row's set points (zero when no pass runs) |
| Bench.ApplyOnBench | PSU.py:396-397 | an in-range call completes, the instrument takes its setting, and the cache reads it back |
| Bench.ExecuteOnBench | PSU.py:389-397 | in-range calls all complete, the instrument holds their settings applied in order, and the trace is exact |
| Bench.FollowCsvOnBench | PSU.py:370-397 | with an in-range sequence file whose steps and durations are valid, `follow_csv` completes with the output on and the final row's set points, and writes exactly the plan's commands |
| LabBench.AwaitStatusOnBench | PS3005.py:262-265 | the instrument answers the first `STATUS?`, so the wait is one query long |
| LabBench.GetStatusOnBench | PS3005.py:251-284 | `get_status` completes after one query and the cache then agrees with the instrument |
| LabBench.RetryOnBench | PS3005.py:198-200 | a setting loop writes nothing when the target holds, and otherwise finishes after exactly one attempt |
| LabBench.VsetOnBench | PS3005.py:190-200 | `vset` writes nothing exactly when the instrument already holds the voltage, otherwise one round sets and confirms it |
| LabBench.IsetOnBench | PS3005.py:215-225 | `iset` writes nothing exactly when the instrument already holds the current, otherwise one round sets and confirms it |
| LabBench.OutputOnBench | PS3005.py:227-249 | `output_on`/`output_off` write nothing when the output is already as asked, otherwise one round switches it |
| LabBench.ApplyOnBench | PS3005.py:299-307 | an in-range call completes, the instrument takes its setting, and it makes one attempt exactly when the instrument does not yet hold the setting, none otherwise |
| LabBench.ExecuteOnBench | PS3005.py:299-307 | in-range calls all complete, the instrument and cache hold their settings applied in order, and the waits are `BenchWaits`: one attempt per call whose setting is not yet held, so the trace is exact |
| LabBench.FollowCsvOnBench | PS3005.py:293-307 | with an in-range sequence file whose steps and durations are valid, `follow_csv` completes with the output on and the final row's set points in instrument and cache, and writes exactly the plan's attempts given by `BenchWaits` |

`value_to_fixed_width_string_v` and `_i` are the same in `PS3005.py:14-51` as
in `PSU.py:6-43`, and the flag decoding of `PS3005.py:267-278` is the same as
in `PSU.py:322-333`. The `Codec` and `Protocol` rows cover both files.

The encoders have no lower bound. A negative value is formatted with a minus
sign, which can make the text longer than five characters (`-1.000` for the
current). `PSU` never retries: a reply lost to the serial timeout is an empty
line, which makes `float()` raise. `LABPS3005DN` repeats a setting until the
cache confirms it, without bound.

## Left out

- `__init__` of both classes and `close_serial`: opening and closing the port, and the constructor's writes, are not modelled. `PSU.__init__` writes `*IDN?`, then calls `output_off()` and `update_status()` (PSU.py:130-134); `LABPS3005DN.__init__` writes `*IDN?` and calls `get_status()` (PS3005.py:116-119). The model defines no starting state: every driver function takes any driver object. The `*OnBench` lemmas start from `InSync`, the synchronised cache the constructor's refresh leaves.
- `load_csv`: reading the file is pandas I/O. The loaded sequence is the `sequence` field, a list of rows or None.
- `get_iout`, `write_serial_continually`, `info_csv_print`, `small_check`, `check_of_class`, `check_of_csv`, `iset_func`'s printing and the `__main__` blocks: interactive or diagnostic helpers outside the drivers' logic (`iset_func`'s parse check is `Codec.CurrentEchoPrefix`).
- `battery_charger.py` and `interface.py` are not part of this model.
- `time.sleep` (the `sleeptime` around each write, the 0.5 s in `find_voltage_battery`, each row's `Duration(s)`), the serial timeout and `flush`: there is no clock. A timeout is the device answering an empty line. What a bad duration does is on the next line.
- Bench.FollowCsvOnBench, LabBench.FollowCsvOnBench, PsuDriver.FollowCsv, LabDriver.FollowCsv: a row keeps only its set points, so these state `follow_csv` for a sequence file whose `Step` and `Duration(s)` cells are valid. In the source a negative, NaN or empty duration makes `time.sleep` raise `ValueError` right after that row's `iset` (PSU.py:398, PS3005.py:308), and a `Step` that is not a number makes `info_csv_print` raise before that row's `vset` (PSU.py:58, PSU.py:395, PS3005.py:290, PS3005.py:305). Such a file stops `follow_csv` part way, which these contracts do not say.
- The serial port itself: the device is a parameter and receives the command rather than its bytes. `Protocol.TextDecodes` and `Protocol.UnframeFrame` show the bytes determine the command.
- The `verbose` printing of `update_status` and `get_status`.
- Floating point: set points are integers at the device's resolution. Values between two resolution steps, the binary rounding of the `f` format and a negative zero are not modelled. A range check on such a value, for example 30.004 V, is therefore not modelled either. `float()` is modelled for plain decimal literals with at most as many fraction digits as the resolution. Exponents, `inf`/`nan`, underscores and longer fractions count as replies `float()` refuses. So do the non-ASCII decimal digits `float()` accepts. A reply is text: `decode()` raising on bytes that are not UTF-8 is not modelled.
- Python exception types: a range error, a reply `float()` refuses and a short status are the faults `ValueTooLarge`, `NotANumber` and `ShortStatus`. Their Python types and messages are not modelled.
- LabDriver.Retry, LabDriver.AwaitStatus: the loops of `LABPS3005DN` run without bound in the source. Here each takes a `fuel` bound and fails with `OutOfFuel` once it is spent, because every function must terminate. A device that never confirms makes the source hang rather than fail.
- PsuDriver.FindVoltageBattery: for an arbitrary device the contract states only the range failure and the untouched sequence. What is restored is whatever the device answered, so the exact trace and the restoration are stated by `Bench.FindVoltageBatteryOnBench` on the faithful instrument.

=== FILE: bench.dfy ===
/** A faithful instrument: it stores every setting it is sent and answers
    each query in the reply format the drivers expect. Running the `PSU`
    driver against it states what its calls achieve on a device that
    behaves: settings reach the device, the cache reads them back, and
    `find_voltage_battery` leaves the device as it found it. */
module Bench {
  import opened Outcomes
  import opened Codec
  import opened Protocol
  import opened Plan
  import opened PsuDriver

  /** The instrument: its flags, its set points (0.01 V, 0.001 A), the
      voltage on the terminals while the output is on (the battery under
      test), and the line waiting to be read. */
  datatype Bench = Bench(flags: Flags, volts: int, amps: int, battery: int, reply: string)

  function FlagChar(b: bool): (c: char)
    ensures FlagSet(c) == b
  {
    if b then '1' else '0'
  }

  /** The status line: one '1' or '0' per flag, then the line end. */
  function StatusReply(f: Flags): (s: string)
    ensures |s| == 4 && Flags(FlagSet(s[0]), FlagSet(s[1]), FlagSet(s[2])) == f
  {
    [FlagChar(f.cv), FlagChar(f.on), FlagChar(f.ocp)] + "\n"
  }

  /** What the output reads: the battery while on, nothing while off. */
  function Output(b: Bench): int {
    if b.flags.on then b.battery else 0
  }

  /** How the instrument takes a command: a query prepares its answer, a
      setting is stored and answers nothing. */
  function Accept(b: Bench, c: Command): Bench {
    match c
    case StatusQuery => b.(reply := StatusReply(b.flags))
    case VsetQuery => b.(reply := VoltageReply(b.volts))
    case IsetQuery => b.(reply := CurrentReply(b.amps))
    case VoutQuery => b.(reply := VoltageReply(Output(b)))
    case OutputOn => b.(flags := b.flags.(on := true), reply := "")
    case OutputOff => b.(flags := b.flags.(on := false), reply := "")
    case SetVoltage(v) => b.(volts := v, reply := "")
    case SetCurrent(i) => b.(amps := i, reply := "")
  }

  /** The waiting line, which is then gone. */
  function Answer(b: Bench): (Bench, string) {
    (b.(reply := ""), b.reply)
  }

  const Faithful: Device<Bench> := Device(Accept, Answer)

  /** The instrument after a sequence of settings, in order. */
  function Effects(b: Bench, cs: seq<Command>): Bench
    decreases |cs|
  {
    if cs == [] then b else Effects(Accept(b, cs[0]), cs[1..])
  }

  /** A command that changes a setting rather than asking for one. */
  predicate Setter(c: Command) {
    c.SetVoltage? || c.SetCurrent? || c.OutputOn? || c.OutputOff?
  }

  /** The settings a sequence of `follow_csv` calls writes. */
  function Settings(ops: seq<Op>): (cs: seq<Command>)
    ensures |cs| == |ops|
    ensures forall k :: 0 <= k < |ops| ==> cs[k] == CommandOf(ops[k])
  {
    if ops == [] then [] else [CommandOf(ops[0])] + Settings(ops[1..])
  }

  // ---------------------------------------------------------------------
  // The `PSU` driver on the bench

  /** The driver's cache after `update_status` on an instrument in state b
      with the commands `sent` written so far. */
  function Synced(psu: Psu<Bench>, b: Bench, sent: seq<Command>): Psu<Bench> {
    psu.(port := Port(b, sent), status := StatusReply(b.flags), setV := b.volts, setI := b.amps, flags := b.flags)
  }

  /** The cache agrees with the instrument and nothing waits to be read. */
  predicate InSync(psu: Psu<Bench>) {
    psu == Synced(psu, psu.port.dev, psu.port.sent) && psu.port.dev.reply == ""
  }

  lemma SyncedInSync(psu: Psu<Bench>, b: Bench, sent: seq<Command>)
    requires b.reply == ""
    ensures InSync(Synced(psu, b, sent))
  {
  }

  /** Synchronising overwrites every field an earlier synchronisation or a
      port change wrote. */
  lemma SyncedAgain(psu: Psu<Bench>, q: Port<Bench>, b: Bench, sent: seq<Command>, b': Bench, sent': seq<Command>)
    ensures Synced(Synced(psu, b, sent), b', sent') == Synced(psu, b', sent')
    ensures Synced(psu.(port := q), b', sent') == Synced(psu, b', sent')
  {
  }

  /** A query reads back the number the instrument reports. */
  lemma ReadNumberOnBench(psu: Psu<Bench>, c: Command, places: nat, x: int)
    requires psu.port.dev.reply == ""
    requires (Accept(psu.port.dev, c).reply == VoltageReply(x) && places == 2)
          || (Accept(psu.port.dev, c).reply == CurrentReply(x) && places == 3)
    requires Accept(psu.port.dev, c) == psu.port.dev.(reply := Accept(psu.port.dev, c).reply)
    ensures ReadNumber(Faithful, psu, c, places) == Done(psu.(port := Port(psu.port.dev, psu.port.sent + [c])), x)
  {
    VoltageRoundTrip(x);
    CurrentRoundTrip(x);
  }

  /** `get_iset`, `get_vset` and `get_vout` read what the instrument holds
      and change nothing but the trace. */
  lemma GetIsetOnBench(psu: Psu<Bench>)
    requires psu.port.dev.reply == ""
    ensures GetIset(Faithful, psu) == Done(psu.(port := Port(psu.port.dev, psu.port.sent + [IsetQuery])), psu.port.dev.amps)
  {
    ReadNumberOnBench(psu, IsetQuery, 3, psu.port.dev.amps);
  }

  lemma GetVsetOnBench(psu: Psu<Bench>)
    requires psu.port.dev.reply == ""
    ensures GetVset(Faithful, psu) == Done(psu.(port := Port(psu.port.dev, psu.port.sent + [VsetQuery])), psu.port.dev.volts)
  {
    ReadNumberOnBench(psu, VsetQuery, 2, psu.port.dev.volts);
  }

  lemma GetVoutOnBench(psu: Psu<Bench>)
    requires psu.port.dev.reply == ""
    ensures GetVout(Faithful, psu) == Done(psu.(port := Port(psu.port.dev, psu.port.sent + [VoutQuery])), Output(psu.port.dev))
  {
    ReadNumberOnBench(psu, VoutQuery, 2, Output(psu.port.dev));
  }

  /** `update_status` on the bench brings the cache in line with the instrument. */
  lemma UpdateStatusOnBench(psu: Psu<Bench>)
    requires psu.port.dev.reply == ""
    ensures UpdateStatus(Faithful, psu) == Done(Synced(psu, psu.port.dev, psu.port.sent + Refresh), ())
  {
    var b := psu.port.dev;
    var (p, status) := GetStatus(Faithful, psu);
    assert status == StatusReply(b.flags) && p.port == Port(b, psu.port.sent + [StatusQuery]);
    var q := ReadFlags(p, status).s;
    assert q.flags == b.flags;
    ReadNumberOnBench(q, VsetQuery, 2, b.volts);
    var q' := q.(port := Port(b, q.port.sent + [VsetQuery]), setV := b.volts);
    ReadNumberOnBench(q', IsetQuery, 3, b.amps);
  }

  /** A setting call on the bench: the instrument takes the setting and the
      cache reads it back. */
  lemma SettingOnBench(psu: Psu<Bench>, c: Command)
    requires psu.port.dev.reply == "" && Setter(c)
    ensures Setting(Faithful, psu, c)
            == Done(Synced(psu, Accept(psu.port.dev, c), psu.port.sent + CallCommands(c)), ())
  {
    var p := WriteSerial(Faithful, psu, c);
    UpdateStatusOnBench(p);
    Associative(psu.port.sent, [c], Refresh);
  }

  /** With nothing waiting to be read, a setting changes only what it sets. */
  lemma AcceptSetting(b: Bench, v: int, i: int)
    requires b.reply == ""
    ensures Accept(b, SetVoltage(v)) == b.(volts := v)
    ensures Accept(b, SetCurrent(i)) == b.(amps := i)
    ensures Accept(b, Command.OutputOn) == b.(flags := b.flags.(on := true))
    ensures Accept(b, Command.OutputOff) == b.(flags := b.flags.(on := false))
  {
  }

  /** `vset` up to 30 V reaches the instrument, and the cache reads it back. */
  lemma VsetOnBench(psu: Psu<Bench>, v: int)
    requires psu.port.dev.reply == "" && v <= MaxVolts
    ensures PsuDriver.Vset(Faithful, psu, v)
            == Done(Synced(psu, psu.port.dev.(volts := v), psu.port.sent + CallCommands(SetVoltage(v))), ())
  {
    SettingOnBench(psu, SetVoltage(v));
    AcceptSetting(psu.port.dev, v, 0);
  }

  /** `iset` up to 5 A reaches the instrument, and the cache reads it back. */
  lemma IsetOnBench(psu: Psu<Bench>, i: int)
    requires psu.port.dev.reply == "" && i <= MaxAmps
    ensures PsuDriver.Iset(Faithful, psu, i)
            == Done(Synced(psu, psu.port.dev.(amps := i), psu.port.sent + CallCommands(SetCurrent(i))), ())
  {
    SettingOnBench(psu, SetCurrent(i));
    AcceptSetting(psu.port.dev, 0, i);
  }

  /** `output_on` and `output_off` switch the instrument, and the cache reads it back. */
  lemma OutputOnBench(psu: Psu<Bench>)
    requires psu.port.dev.reply == ""
    ensures var b := psu.port.dev;
            && PsuDriver.OutputOn(Faithful, psu)
               == Done(Synced(psu, b.(flags := b.flags.(on := true)), psu.port.sent + CallCommands(Command.OutputOn)), ())
            && PsuDriver.OutputOff(Faithful, psu)
               == Done(Synced(psu, b.(flags := b.flags.(on := false)), psu.port.sent + CallCommands(Command.OutputOff)), ())
  {
    SettingOnBench(psu, Command.OutputOn);
    SettingOnBench(psu, Command.OutputOff);
    AcceptSetting(psu.port.dev, 0, 0);
  }

  /** Probing switches the output on (if the cached flag says it was off),
      holds the safe voltage and the checking current, and reads the battery. */
  lemma ProbeOnBench(psu: Psu<Bench>, on: bool, safe: int, checking: int)
    requires psu.port.dev.reply == "" && on == psu.port.dev.flags.on
    requires safe <= MaxVolts && checking <= MaxAmps
    ensures var b := psu.port.dev;
            Probe(Faithful, psu, on, safe, checking)
            == Done(Synced(psu, b.(volts := safe, amps := checking, flags := b.flags.(on := true)),
                           psu.port.sent + ProbeCommands(on, safe, checking)),
                    b.battery)
  {
    var b := psu.port.dev;
    IsetOnBench(psu, checking);
    var a := Synced(psu, b.(amps := checking), psu.port.sent + CallCommands(SetCurrent(checking)));
    VsetOnBench(a, safe);
    var v := Synced(a, a.port.dev.(volts := safe), a.port.sent + CallCommands(SetVoltage(safe)));
    SyncedAgain(psu, psu.port, b.(amps := checking), a.port.sent, a.port.dev.(volts := safe), v.port.sent);
    OutputOnBench(v);
    var o := if on then v else Synced(v, v.port.dev.(flags := v.port.dev.flags.(on := true)),
                                      v.port.sent + CallCommands(Command.OutputOn));
    SyncedAgain(psu, psu.port, v.port.dev, v.port.sent, o.port.dev, o.port.sent);
    GetVoutOnBench(o);
    SyncedAgain(psu, psu.port, o.port.dev, o.port.sent, o.port.dev, o.port.sent + [VoutQuery]);
  }

  /** Restoring switches the output back off if it was off and puts back
      both set points. */
  lemma RestoreOnBench(psu: Psu<Bench>, on: bool, oldV: int, oldI: int)
    requires psu.port.dev.reply == "" && oldV <= MaxVolts && oldI <= MaxAmps
    requires InSync(psu) && psu.port.dev.flags.on
    ensures var b := psu.port.dev;
            Restore(Faithful, psu, on, oldV, oldI)
            == Done(Synced(psu, b.(volts := oldV, amps := oldI, flags := b.flags.(on := on)),
                           psu.port.sent + RestoreCommands(on, oldV, oldI)),
                    ())
  {
    var b := psu.port.dev;
    OutputOnBench(psu);
    var u := if on then psu else Synced(psu, b.(flags := b.flags.(on := false)),
                                        psu.port.sent + CallCommands(Command.OutputOff));
    VsetOnBench(u, oldV);
    var v := Synced(u, u.port.dev.(volts := oldV), u.port.sent + CallCommands(SetVoltage(oldV)));
    SyncedAgain(psu, psu.port, u.port.dev, u.port.sent, v.port.dev, v.port.sent);
    IsetOnBench(v, oldI);
    var w := Synced(v, v.port.dev.(amps := oldI), v.port.sent + CallCommands(SetCurrent(oldI)));
    SyncedAgain(psu, psu.port, v.port.dev, v.port.sent, w.port.dev, w.port.sent);
  }

  /** `find_voltage_battery` on the bench returns the battery voltage and
      leaves the instrument exactly as it found it: output flag, voltage and
      current restored. It writes `OUTPUT1` and `OUTPUT0` only when the
      output was off beforehand. */
  lemma FindVoltageBatteryOnBench(psu: Psu<Bench>, safe: int, checking: int)
    requires InSync(psu) && safe <= MaxVolts && checking <= MaxAmps
    requires psu.port.dev.volts <= MaxVolts && psu.port.dev.amps <= MaxAmps
    ensures var b := psu.port.dev;
            FindVoltageBattery(Faithful, psu, safe, checking)
            == Done(Synced(psu, b, psu.port.sent + [IsetQuery, VsetQuery]
                                   + ProbeCommands(b.flags.on, safe, checking)
                                   + RestoreCommands(b.flags.on, b.volts, b.amps)),
                    b.battery)
  {
    var b := psu.port.dev;
    var on := b.flags.on;
    var sent := psu.port.sent + [IsetQuery, VsetQuery];
    GetIsetOnBench(psu);
    var i := psu.(port := Port(b, psu.port.sent + [IsetQuery]));
    GetVsetOnBench(i);
    var v := psu.(port := Port(b, sent));
    Associative(psu.port.sent, [IsetQuery], [VsetQuery]);
    assert [IsetQuery] + [VsetQuery] == [IsetQuery, VsetQuery];
    assert i.port.sent + [VsetQuery] == sent;
    assert GetVset(Faithful, i) == Done(v, b.volts);
    ProbeOnBench(v, on, safe, checking);
    var probing := b.(volts := safe, amps := checking, flags := b.flags.(on := true));
    var p := Synced(psu, probing, sent + ProbeCommands(on, safe, checking));
    SyncedAgain(psu, v.port, probing, p.port.sent, probing, p.port.sent);
    assert Probe(Faithful, v, on, safe, checking) == Done(p, b.battery);
    SyncedInSync(psu, probing, p.port.sent);
    RestoreOnBench(p, on, b.volts, b.amps);
    assert probing.(volts := b.volts, amps := b.amps, flags := probing.flags.(on := on)) == b;
    var done := p.port.sent + RestoreCommands(on, b.volts, b.amps);
    SyncedAgain(psu, psu.port, probing, p.port.sent, b, done);
    assert Restore(Faithful, p, on, b.volts, b.amps) == Done(Synced(psu, b, done), ());
  }

  /** With the default arguments of `find_voltage_battery`, 5 V and
      0.001 A, the call on the bench completes, reads the battery and hands
      the instrument back as it was. */
  lemma FindVoltageBatteryDefaultsOnBench(psu: Psu<Bench>)
    requires InSync(psu) && psu.port.dev.volts <= MaxVolts && psu.port.dev.amps <= MaxAmps
    ensures var r := FindVoltageBattery(Faithful, psu, DefaultSafeVolts, DefaultCheckingAmps);
            r.Done? && r.v == psu.port.dev.battery && r.s.port.dev == psu.port.dev
  {
    FindVoltageBatteryOnBench(psu, DefaultSafeVolts, DefaultCheckingAmps);
  }

  // ---------------------------------------------------------------------
  // Sequences of settings

  lemma SettingsAppend(a: seq<Op>, c: seq<Op>)
    ensures Settings(a + c) == Settings(a) + Settings(c)
  {
    var joined := Settings(a + c);
    var parts := Settings(a) + Settings(c);
    forall k | 0 <= k < |joined|
      ensures joined[k] == parts[k]
    {
      if k < |a| {
        assert (a + c)[k] == a[k];
      } else {
        assert (a + c)[k] == c[k - |a|];
      }
    }
  }

  lemma {:induction false} EffectsAppend(b: Bench, x: seq<Command>, y: seq<Command>)
    ensures Effects(b, x + y) == Effects(Effects(b, x), y)
    decreases |x|
  {
    if x != [] {
      assert (x + y)[0] == x[0] && (x + y)[1..] == x[1..] + y;
      EffectsAppend(Accept(b, x[0]), x[1..], y);
    } else {
      assert x + y == y;
    }
  }

  /** Setting one row: the voltage, then the current. */
  lemma RowEffects(b: Bench, r: Row)
    ensures Effects(b, Settings([Op.Vset(r.volts), Op.Iset(r.amps)])) == b.(volts := r.volts, amps := r.amps, reply := "")
  {
    var cs := Settings([Op.Vset(r.volts), Op.Iset(r.amps)]);
    assert cs == [SetVoltage(r.volts), SetCurrent(r.amps)];
    var b1 := Accept(b, SetVoltage(r.volts));
    assert cs[1..] == [SetCurrent(r.amps)] && cs[1..][1..] == [];
    assert Effects(b, cs) == Effects(b1, cs[1..]);
    assert Effects(b1, cs[1..]) == Effects(Accept(b1, SetCurrent(r.amps)), []);
  }

  /** A pass over the rows leaves the last row's set points and changes nothing else. */
  lemma {:induction false} PassEffects(b: Bench, rows: seq<Row>)
    requires rows != []
    ensures Effects(b, Settings(RowOps(rows))) == b.(volts := rows[|rows| - 1].volts, amps := rows[|rows| - 1].amps, reply := "")
    decreases |rows|
  {
    var init := rows[..|rows| - 1];
    var last := rows[|rows| - 1];
    var pair := [Op.Vset(last.volts), Op.Iset(last.amps)];
    SettingsAppend(RowOps(init), pair);
    EffectsAppend(b, Settings(RowOps(init)), Settings(pair));
    var d := Effects(b, Settings(RowOps(init)));
    if init != [] {
      PassEffects(b, init);
    }
    RowEffects(d, last);
  }

  /** Repeated passes end on the last row as well. */
  lemma {:induction false} PassesEffects(b: Bench, rows: seq<Row>, n: nat)
    requires rows != [] && n > 0
    ensures Effects(b, Settings(Repeat(RowOps(rows), n)))
            == b.(volts := rows[|rows| - 1].volts, amps := rows[|rows| - 1].amps, reply := "")
  {
    var ops := RowOps(rows);
    SettingsAppend(Repeat(ops, n - 1), ops);
    EffectsAppend(b, Settings(Repeat(ops, n - 1)), Settings(ops));
    var d := Effects(b, Settings(Repeat(ops, n - 1)));
    if n > 1 {
      PassesEffects(b, rows, n - 1);
    }
    PassEffects(d, rows);
  }

  /** What `follow_csv`'s calls leave on the instrument: the output on and
      the set points of the final row. */
  lemma CsvEffects(b: Bench, rows: seq<Row>, repetitions: int)
    ensures var f := FinalRow(rows, repetitions);
            Effects(b, Settings(CsvPlan(rows, repetitions)))
            == b.(volts := f.volts, amps := f.amps, flags := b.flags.(on := true), reply := "")
  {
    var opening := [Op.Vset(0), Op.Iset(0), On];
    var passes := Repeat(RowOps(rows), Times(repetitions));
    SettingsAppend(opening, passes);
    EffectsAppend(b, Settings(opening), Settings(passes));
    var cs := Settings(opening);
    assert cs == [SetVoltage(0), SetCurrent(0), Command.OutputOn];
    assert cs[1..] == [SetCurrent(0), Command.OutputOn] && cs[1..][1..] == [Command.OutputOn] && cs[1..][1..][1..] == [];
    var b1 := Accept(b, SetVoltage(0));
    var b2 := Accept(b1, SetCurrent(0));
    assert Effects(b, cs) == Effects(b1, cs[1..]);
    assert Effects(b1, cs[1..]) == Effects(b2, cs[1..][1..]);
    assert Effects(b2, cs[1..][1..]) == Effects(Accept(b2, Command.OutputOn), []);
    var d := Effects(b, cs);
    assert d == b.(volts := 0, amps := 0, flags := b.flags.(on := true), reply := "");
    if repetitions > 0 && rows != [] {
      PassesEffects(d, rows, Times(repetitions));
    } else {
      CsvPlanNoPass(rows, repetitions);
      assert passes == [];
    }
  }

  // ---------------------------------------------------------------------
  // `follow_csv` of the `PSU` driver on the bench

  /** An admissible call on the bench: the instrument takes its setting and
      the cache reads it back. */
  lemma ApplyOnBench(psu: Psu<Bench>, op: Op)
    requires psu.port.dev.reply == "" && Admissible(op)
    ensures PsuDriver.Apply(Faithful, psu, op)
            == Done(Synced(psu, Accept(psu.port.dev, CommandOf(op)), psu.port.sent + CallCommands(CommandOf(op))), ())
  {
    SettingOnBench(psu, CommandOf(op));
  }

  /** Calls that all pass the range checks all complete on the bench, and
      the instrument ends up with their settings applied in order. */
  lemma {:induction false} ExecuteOnBench(psu: Psu<Bench>, ops: seq<Op>)
    requires InSync(psu) && AllAdmissible(ops)
    ensures PsuDriver.Execute(Faithful, psu, ops)
            == Done(Synced(psu, Effects(psu.port.dev, Settings(ops)), psu.port.sent + PlanCommands(ops)), ())
    decreases |ops|
  {
    var b := psu.port.dev;
    if ops == [] {
      assert psu.port.sent + PlanCommands(ops) == psu.port.sent;
    } else {
      var c := CommandOf(ops[0]);
      assert Admissible(ops[0]);
      ApplyOnBench(psu, ops[0]);
      var p := Synced(psu, Accept(b, c), psu.port.sent + CallCommands(c));
      SyncedInSync(psu, Accept(b, c), p.port.sent);
      assert AllAdmissible(ops[1..]) by {
        forall k | 0 <= k < |ops[1..]|
          ensures Admissible(ops[1..][k])
        {
          assert ops[1..][k] == ops[k + 1];
        }
      }
      ExecuteOnBench(p, ops[1..]);
      var e := Effects(Accept(b, c), Settings(ops[1..]));
      assert Settings(ops)[0] == c && Settings(ops)[1..] == Settings(ops[1..]);
      assert e == Effects(b, Settings(ops));
      Associative(psu.port.sent, CallCommands(c), PlanCommands(ops[1..]));
      SyncedAgain(psu, psu.port, Accept(b, c), p.port.sent, e, p.port.sent + PlanCommands(ops[1..]));
    }
  }

  /** `follow_csv` on the bench with a sequence file within range: every
      call completes, the output ends up on, and the instrument holds the
      final row's set points. */
  lemma FollowCsvOnBench(psu: Psu<Bench>, repetitions: int)
    requires InSync(psu) && psu.sequence.Some? && RowsAdmissible(psu.sequence.value)
    ensures var b := psu.port.dev;
            var rows := psu.sequence.value;
            var f := FinalRow(rows, repetitions);
            PsuDriver.FollowCsv(Faithful, psu, repetitions)
            == Done(Synced(psu, b.(volts := f.volts, amps := f.amps, flags := b.flags.(on := true)),
                           psu.port.sent + PlanCommands(CsvPlan(rows, repetitions))),
                    ())
  {
    var rows := psu.sequence.value;
    CsvPlanAdmissible(rows, repetitions);
    ExecuteOnBench(psu, CsvPlan(rows, repetitions));
    CsvEffects(psu.port.dev, rows, repetitions);
  }
}

=== FILE: codec.dfy ===
/** The fixed-width set-point codec shared by both drivers.

    A voltage is an integer count of 0.01 V and a current an integer count of
    0.001 A. `EncodeVoltage` and `EncodeCurrent` produce exactly the text of
    Python's `f'{value:2.2f}'.rjust(5, '0')` and `f'{value:1.3f}'.rjust(5, '0')`
    for a value already at that resolution; `ParseReading` is `float()` applied
    to a device reply, restricted to plain decimal literals. */
module Codec {
  import opened Outcomes

  /** n * 10^k, by repeated multiplication by ten. */
  function Scale(n: nat, k: nat): (r: nat)
    ensures r >= n
  {
    if k == 0 then n else 10 * Scale(n, k - 1)
  }

  /** 10^k. */
  function Pow10(k: nat): (p: nat)
    ensures p >= 1
  {
    Scale(1, k)
  }

  /** m / 10^k, by repeated division by ten. */
  function Quot(m: nat, k: nat): nat {
    if k == 0 then m else Quot(m / 10, k - 1)
  }

  /** m % 10^k: the low k decimal digits of m. */
  function Rem(m: nat, k: nat): (r: nat)
    ensures r < Pow10(k)
  {
    if k == 0 then 0 else 10 * Rem(m / 10, k - 1) + m % 10
  }

  predicate IsDigit(c: char) {
    '0' <= c <= '9'
  }

  predicate AllDigits(s: string) {
    forall k :: 0 <= k < |s| ==> IsDigit(s[k])
  }

  function DigitChar(d: nat): (c: char)
    requires d < 10
    ensures IsDigit(c)
  {
    (48 + d) as char
  }

  function DigitValue(c: char): (d: nat)
    requires IsDigit(c)
    ensures d < 10
  {
    c as int - 48
  }

  /** `n` written in decimal, most significant digit first, without leading zeros. */
  function Digits(n: nat): (s: string)
    ensures 1 <= |s| && AllDigits(s)
    decreases n
  {
    if n < 10 then [DigitChar(n)] else Digits(n / 10) + [DigitChar(n % 10)]
  }

  function Fill(n: nat, c: char): (s: string)
    ensures |s| == n
  {
    seq(n, _ => c)
  }

  /** Python's `str.rjust(width, fill)`. */
  function PadLeft(s: string, width: nat, fill: char): (r: string)
    ensures |s| >= width ==> r == s
    ensures |s| < width ==> |r| == width && r[width - |s|..] == s
    ensures forall k :: 0 <= k < width - |s| ==> r[k] == fill
  {
    if |s| >= width then s else Fill(width - |s|, fill) + s
  }

  /** The `f` presentation of x / 10^places with `places` fraction digits.
      The minimum field widths of the source's format specs (2 and 1) are
      always exceeded, so they never pad. */
  function FormatFixed(x: int, places: nat): (s: string)
    requires places >= 1
    ensures |s| >= places + 2
  {
    if x < 0 then "-" + Unsigned(-x, places) else Unsigned(x, places)
  }

  /** The digits of m / 10^places, a point, and the low `places` digits of m. */
  function Unsigned(m: nat, places: nat): (s: string)
    requires places >= 1
    ensures |s| >= places + 2
  {
    Digits(Quot(m, places)) + "." + Places(m, places)
  }

  /** The low k decimal digits of n, zero-padded to exactly k characters. */
  function Places(n: nat, k: nat): (s: string)
    ensures |s| == k && AllDigits(s)
  {
    if k == 0 then [] else Places(n / 10, k - 1) + [DigitChar(n % 10)]
  }

  /** `value_to_fixed_width_string_v` (the same in both drivers). */
  function EncodeVoltage(v: int): (s: string)
    ensures |s| >= 5
  {
    PadLeft(FormatFixed(v, 2), 5, '0')
  }

  /** `value_to_fixed_width_string_i` (the same in both drivers). */
  function EncodeCurrent(i: int): (s: string)
    ensures |s| >= 5
  {
    PadLeft(FormatFixed(i, 3), 5, '0')
  }

  // ---------------------------------------------------------------------
  // Parsing a reply, as float() does for plain decimal literals

  /** Digits, optionally followed by '.' and at most `places` fraction
      digits, with at least one digit in all, read as a count of
      10^-places units. */
  function ParseUnsigned(s: string, places: nat): Option<nat> {
    Whole(s, 0, false, places)
  }

  /** Scans the integer part; `acc` is its value so far and `seen` whether a digit was read. */
  function Whole(s: string, acc: nat, seen: bool, places: nat): Option<nat>
    decreases |s|
  {
    if s == [] then (if seen then Some(Scale(acc, places)) else None)
    else if IsDigit(s[0]) then Whole(s[1..], 10 * acc + DigitValue(s[0]), true, places)
    else if s[0] == '.' then Fraction(s[1..], acc, seen, places)
    else None
  }

  /** Scans the fraction part; `left` is how many fraction places remain. */
  function Fraction(s: string, acc: nat, seen: bool, left: nat): Option<nat>
    decreases |s|
  {
    if s == [] then (if seen then Some(Scale(acc, left)) else None)
    else if IsDigit(s[0]) && left > 0 then Fraction(s[1..], 10 * acc + DigitValue(s[0]), true, left - 1)
    else None
  }

  /** acc followed by the digits of w, read as one decimal number. */
  function Accumulate(acc: nat, w: string): nat
    requires AllDigits(w)
    decreases |w|
  {
    if w == [] then acc else Accumulate(10 * acc + DigitValue(w[0]), w[1..])
  }

  /** An optionally signed decimal literal, read as a count of 10^-places units. */
  function ParseFixed(s: string, places: nat): Option<int> {
    if |s| > 0 && (s[0] == '-' || s[0] == '+') then
      match ParseUnsigned(s[1..], places)
      case None => None
      case Some(n) => if s[0] == '-' then Some(-(n as int)) else Some(n)
    else
      match ParseUnsigned(s, places)
      case None => None
      case Some(n) => Some(n)
  }

  /** The white space float() ignores around a literal: what Python's
      `str.isspace` accepts, the ASCII controls 0x09-0x0D and 0x1C-0x1F,
      the space, and the Unicode separators. */
  predicate IsSpace(c: char) {
    c == ' ' || '\t' <= c <= '\r' || '\U{1C}' <= c <= '\U{1F}'
    || c == '\U{85}' || c == '\U{A0}' || c == '\U{1680}' || '\U{2000}' <= c <= '\U{200A}'
    || c == '\U{2028}' || c == '\U{2029}' || c == '\U{202F}' || c == '\U{205F}' || c == '\U{3000}'
  }

  function TrimLeft(s: string): (r: string)
    ensures |r| <= |s| && r == s[|s| - |r|..]
    ensures |r| > 0 ==> !IsSpace(r[0])
  {
    if |s| > 0 && IsSpace(s[0]) then TrimLeft(s[1..]) else s
  }

  /** `float(reply.decode())`, counted in 10^-places units; None where
      float() raises. White space is dropped from the end, then from the
      front, and the rest must be a literal. */
  function ParseReading(line: string, places: nat): Option<int>
    decreases |line|
  {
    if |line| > 0 && IsSpace(line[|line| - 1]) then ParseReading(line[..|line| - 1], places)
    else ParseFixed(TrimLeft(line), places)
  }

  // ---------------------------------------------------------------------
  // Properties

  lemma {:induction false} QuotRem(m: nat, k: nat)
    ensures Scale(Quot(m, k), k) + Rem(m, k) == m
  {
    if k > 0 {
      QuotRem(m / 10, k - 1);
    }
  }

  /** Reading one more digit multiplies by ten and adds it. */
  lemma {:induction false} AccumulateSnoc(acc: nat, u: string, d: char)
    requires AllDigits(u) && IsDigit(d)
    ensures AllDigits(u + [d])
    ensures Accumulate(acc, u + [d]) == 10 * Accumulate(acc, u) + DigitValue(d)
    decreases |u|
  {
    if u != [] {
      assert (u + [d])[1..] == u[1..] + [d];
      AccumulateSnoc(10 * acc + DigitValue(u[0]), u[1..], d);
    }
  }

  /** The decimal text of n reads back as n. */
  lemma {:induction false} AccumulateDigits(n: nat)
    ensures Accumulate(0, Digits(n)) == n
    decreases n
  {
    if n >= 10 {
      AccumulateDigits(n / 10);
      AccumulateSnoc(0, Digits(n / 10), DigitChar(n % 10));
    }
  }

  /** Leading zeros do not change the value, as rjust(.., '0') relies on. */
  lemma {:induction false} AccumulateZeros(z: nat, u: string)
    requires AllDigits(u)
    ensures AllDigits(Fill(z, '0') + u)
    ensures Accumulate(0, Fill(z, '0') + u) == Accumulate(0, u)
  {
    var s := Fill(z, '0') + u;
    if z > 0 {
      assert s[1..] == Fill(z - 1, '0') + u;
      AccumulateZeros(z - 1, u);
      assert s == ['0'] + s[1..];
    } else {
      assert s == u;
    }
  }

  /** The k-place field of m, read after acc, appends the low k digits of m to acc. */
  lemma {:induction false} AccumulatePlaces(acc: nat, m: nat, k: nat)
    ensures Accumulate(acc, Places(m, k)) == Scale(acc, k) + Rem(m, k)
  {
    if k > 0 {
      AccumulatePlaces(acc, m / 10, k - 1);
      AccumulateSnoc(acc, Places(m / 10, k - 1), DigitChar(m % 10));
    }
  }

  /** A run of digits in the integer part is read as one number. */
  lemma {:induction false} WholeDigits(w: string, t: string, acc: nat, seen: bool, places: nat)
    requires AllDigits(w)
    ensures Whole(w + t, acc, seen, places) == Whole(t, Accumulate(acc, w), seen || w != [], places)
    decreases |w|
  {
    if w != [] {
      assert (w + t)[0] == w[0] && (w + t)[1..] == w[1..] + t;
      WholeDigits(w[1..], t, 10 * acc + DigitValue(w[0]), true, places);
    } else {
      assert w + t == t;
    }
  }

  /** Exactly `places` fraction digits fill every place. */
  lemma {:induction false} FractionDigits(f: string, acc: nat)
    requires AllDigits(f)
    ensures Fraction(f, acc, true, |f|) == Some(Accumulate(acc, f))
    decreases |f|
  {
    if f != [] {
      FractionDigits(f[1..], 10 * acc + DigitValue(f[0]));
    }
  }

  // Small facts about sequences. Dafny proves each unaided; they are lemmas
  // of their own only so that the larger proofs cite them instead of
  // searching for them, which keeps the solver's work small.

  lemma Regroup(a: string, b: string, c: string, d: string)
    ensures a + (b + c + d) == (a + b) + (c + d)
  {
  }

  lemma FillNone(s: string, c: char)
    ensures Fill(0, c) + s == s
  {
  }

  lemma DropSign(t: string)
    ensures ("-" + t)[1..] == t
  {
  }

  lemma PointFirst(p: string)
    ensures ("." + p)[0] == '.' && ("." + p)[1..] == p
  {
  }

  lemma ParseNegative(t: string, n: nat, places: nat)
    requires ParseUnsigned(t, places) == Some(n)
    ensures ParseFixed("-" + t, places) == Some(-(n as int))
  {
    DropSign(t);
  }

  lemma ParseUnsignedFirstDigit(s: string, n: nat, places: nat)
    requires |s| > 0 && IsDigit(s[0]) && ParseUnsigned(s, places) == Some(n)
    ensures ParseFixed(s, places) == Some(n)
  {
  }

  /** Zero padding followed by the unsigned text of m parses back to m. */
  lemma UnsignedParses(z: nat, m: nat, places: nat)
    requires 1 <= places
    ensures ParseUnsigned(Fill(z, '0') + Unsigned(m, places), places) == Some(m)
  {
    var q := Quot(m, places);
    var w := Fill(z, '0') + Digits(q);
    var p := Places(m, places);
    Regroup(Fill(z, '0'), Digits(q), ".", p);
    AccumulateZeros(z, Digits(q));
    AccumulateDigits(q);
    WholeDigits(w, "." + p, 0, false, places);
    PointFirst(p);
    FractionDigits(p, q);
    AccumulatePlaces(q, m, places);
    QuotRem(m, places);
  }

  /** The unsigned text of m parses back to m. */
  lemma UnsignedParsesBare(m: nat, places: nat)
    requires 1 <= places
    ensures ParseUnsigned(Unsigned(m, places), places) == Some(m)
  {
    UnsignedParses(0, m, places);
    FillNone(Unsigned(m, places), '0');
  }

  lemma PadLeftIsFill(s: string, width: nat, fill: char)
    ensures PadLeft(s, width, fill) == Fill(if |s| >= width then 0 else width - |s|, fill) + s
  {
    if |s| >= width {
      FillNone(s, fill);
    }
  }

  /** Non-negative values: the rjust zero padding parses away. */
  lemma EncodedRoundTripNonNegative(x: nat, places: nat)
    requires places >= 1
    ensures ParseFixed(PadLeft(FormatFixed(x, places), 5, '0'), places) == Some(x)
  {
    var t := Unsigned(x, places);
    var z := if |t| >= 5 then 0 else 5 - |t|;
    var s := Fill(z, '0') + t;
    PadLeftIsFill(t, 5, '0');
    UnsignedParses(z, x, places);
    assert IsDigit(s[0]) by {
      assert s[0] == (if z > 0 then Fill(z, '0')[0] else Digits(Quot(x, places))[0]);
    }
    ParseUnsignedFirstDigit(s, x, places);
  }

  /** Negative values: the text is already five or more characters, so the
      minus sign stays in front. */
  lemma EncodedRoundTripNegative(x: int, places: nat)
    requires places >= 2 && x < 0
    ensures ParseFixed(PadLeft(FormatFixed(x, places), 5, '0'), places) == Some(x)
  {
    NegativeText(x, places);
    UnsignedParsesBare(-x, places);
    ParseNegative(Unsigned(-x, places), -x, places);
  }

  lemma NegativeText(x: int, places: nat)
    requires places >= 2 && x < 0
    ensures PadLeft(FormatFixed(x, places), 5, '0') == "-" + Unsigned(-x, places)
  {
  }

  /** The encoded text reads back as the value it encodes, for every integer
      (negative values included) once at least two fraction digits are shown. */
  lemma EncodedRoundTrip(x: int, places: nat)
    requires places >= 2
    ensures ParseFixed(PadLeft(FormatFixed(x, places), 5, '0'), places) == Some(x)
  {
    if x < 0 {
      EncodedRoundTripNegative(x, places);
    } else {
      EncodedRoundTripNonNegative(x, places);
    }
  }

  /** Sequence fact proved unaided; a lemma only to keep the solver's work
      in `EncodedEnds` small. */
  lemma LastOf(a: string, p: string)
    requires |p| > 0
    ensures (a + p)[|a + p| - 1] == p[|p| - 1]
  {
  }

  /** An encoding begins with a digit or '-' and ends with a digit, so white
      space around it is never part of it. */
  lemma EncodedEnds(x: int, places: nat)
    requires places >= 1
    ensures var s := PadLeft(FormatFixed(x, places), 5, '0');
            (IsDigit(s[0]) || s[0] == '-') && IsDigit(s[|s| - 1])
  {
    var m := if x < 0 then -x else x;
    var t := Unsigned(m, places);
    var s := PadLeft(FormatFixed(x, places), 5, '0');
    var p := Places(m, places);
    LastOf(Digits(Quot(m, places)) + ".", p);
    assert IsDigit(t[0]) && IsDigit(t[|t| - 1]);
    PadLeftIsFill(FormatFixed(x, places), 5, '0');
    LastOf(Fill(if |FormatFixed(x, places)| >= 5 then 0 else 5 - |FormatFixed(x, places)|, '0'), FormatFixed(x, places));
    assert IsDigit(s[|s| - 1]);
  }

  /** A digit or a minus sign is never white space. Proved unaided; a lemma
      only so that `ParseReadingEncoded` does not unfold `IsSpace` itself. */
  lemma SignNotSpace(c: char)
    requires IsDigit(c) || c == '-'
    ensures !IsSpace(c)
  {
  }

  /** Text that neither starts nor ends with white space reads as its own
      literal, with or without the line end the device appends. */
  lemma ReadingOfText(s: string, x: int, places: nat)
    requires |s| > 0 && !IsSpace(s[0]) && !IsSpace(s[|s| - 1])
    requires ParseFixed(s, places) == Some(x)
    ensures ParseReading(s, places) == Some(x)
    ensures ParseReading(s + "\n", places) == Some(x)
  {
    assert ParseReading(s, places) == Some(x);
    assert (s + "\n")[..|s|] == s;
  }

  lemma ParseReadingEncoded(x: int, places: nat)
    requires places >= 2
    ensures var s := PadLeft(FormatFixed(x, places), 5, '0');
            ParseReading(s, places) == Some(x) && ParseReading(s + "\n", places) == Some(x)
  {
    var s := PadLeft(FormatFixed(x, places), 5, '0');
    EncodedEnds(x, places);
    SignNotSpace(s[0]);
    SignNotSpace(s[|s| - 1]);
    EncodedRoundTrip(x, places);
    ReadingOfText(s, x, places);
  }

  /** A voltage reply `dd.dd\n` reads back as the voltage that was encoded. */
  lemma VoltageRoundTrip(v: int)
    ensures ParseFixed(EncodeVoltage(v), 2) == Some(v)
    ensures ParseReading(EncodeVoltage(v), 2) == Some(v)
    ensures ParseReading(EncodeVoltage(v) + "\n", 2) == Some(v)
  {
    EncodedRoundTrip(v, 2);
    ParseReadingEncoded(v, 2);
  }

  /** A current reply `d.ddd\n` reads back as the current that was encoded. */
  lemma CurrentRoundTrip(i: int)
    ensures ParseFixed(EncodeCurrent(i), 3) == Some(i)
    ensures ParseReading(EncodeCurrent(i), 3) == Some(i)
    ensures ParseReading(EncodeCurrent(i) + "\n", 3) == Some(i)
  {
    EncodedRoundTrip(i, 3);
    ParseReadingEncoded(i, 3);
  }

  // ---------------------------------------------------------------------
  // The fixed-width layout

  lemma PadLeftAppend(s: string, t: string, width: nat, fill: char)
    ensures PadLeft(s + t, width + |t|, fill) == PadLeft(s, width, fill) + t
  {
    if |s| < width {
      assert Fill(width - |s|, fill) + (s + t) == Fill(width - |s|, fill) + s + t;
    }
  }

  /** A number below 10^k, written in decimal and zero-padded to k digits, is its k-place field. */
  lemma {:induction false} PaddedDigits(n: nat, k: nat)
    requires 1 <= k && n < Pow10(k)
    ensures PadLeft(Digits(n), k, '0') == Places(n, k)
    decreases k
  {
    if n < 10 {
      PlacesOfZero(k - 1);
      assert Places(n, k) == Places(0, k - 1) + [DigitChar(n)];
    } else {
      PadLeftAppend(Digits(n / 10), [DigitChar(n % 10)], k - 1, '0');
      PaddedDigits(n / 10, k - 1);
    }
  }

  lemma {:induction false} PlacesOfZero(k: nat)
    ensures Places(0, k) == Fill(k, '0')
  {
    if k > 0 {
      PlacesOfZero(k - 1);
    }
  }

  /** The j + k place field of m is the j-place field of its integer part
      followed by its k-place fraction field. */
  lemma {:induction false} PlacesSplit(m: nat, j: nat, k: nat)
    ensures Places(m, j + k) == Places(Quot(m, k), j) + Places(m, k)
  {
    if k > 0 {
      PlacesSplit(m / 10, j, k - 1);
    }
  }

  lemma {:induction false} QuotBound(m: nat, j: nat, k: nat)
    requires m < Pow10(j + k)
    ensures Quot(m, k) < Pow10(j)
  {
    if k > 0 {
      QuotBound(m / 10, j, k - 1);
    }
  }

  lemma UnsignedFields(m: nat, places: nat)
    requires places >= 1
    ensures Unsigned(m, places) == Digits(Quot(m, places)) + ("." + Places(m, places))
  {
  }

  lemma VoltageFields(v: int)
    requires 0 <= v < 10000
    ensures EncodeVoltage(v) == Places(Quot(v, 2), 2) + ("." + Places(v, 2))
  {
    var q := Quot(v, 2);
    var t := "." + Places(v, 2);
    UnsignedFields(v, 2);
    assert FormatFixed(v, 2) == Digits(q) + t && |t| == 3;
    assert Pow10(4) == 10000 && Pow10(2) == 100;
    QuotBound(v, 2, 2);
    PaddedDigits(q, 2);
    PadLeftAppend(Digits(q), t, 2, '0');
  }

  lemma CurrentFields(i: int)
    requires 0 <= i < 10000
    ensures EncodeCurrent(i) == FormatFixed(i, 3)
    ensures FormatFixed(i, 3) == Places(Quot(i, 3), 1) + ("." + Places(i, 3))
  {
    var q := Quot(i, 3);
    UnsignedFields(i, 3);
    assert Pow10(4) == 10000 && Pow10(1) == 10;
    QuotBound(i, 1, 3);
    PaddedDigits(q, 1);
    FillNone(Digits(q), '0');
  }

  /** Sequence fact proved unaided; a lemma only to keep the solver's work
      in the layout lemmas below small. */
  lemma SplitAt(a: string, b: string, c: string)
    ensures var p := a + c; (p[..|a|] == a && p[|a|..] == c) && a + (b + c) == p[..|a|] + b + p[|a|..]
  {
  }

  /** From 0.00 V up to 99.99 V (vset admits 0.00 to 30.00) the voltage text
      is the value's four decimal digits with a point after the second: the
      `dd.dd` layout, zero-padded in front. */
  lemma VoltageLayout(v: int)
    requires 0 <= v < 10000
    ensures |EncodeVoltage(v)| == 5
    ensures var p := Places(v, 4); EncodeVoltage(v) == p[..2] + "." + p[2..]
  {
    VoltageFields(v);
    PlacesSplit(v, 2, 2);
    SplitAt(Places(Quot(v, 2), 2), ".", Places(v, 2));
  }

  /** From 0.000 A up to 9.999 A (iset admits 0.000 to 5.000) the current
      text is the value's four decimal digits with a point after the first:
      the `d.ddd` layout, five characters before padding, so the rjust adds
      nothing. */
  lemma CurrentLayout(i: int)
    requires 0 <= i < 10000
    ensures |EncodeCurrent(i)| == 5 && EncodeCurrent(i) == FormatFixed(i, 3)
    ensures var p := Places(i, 4); EncodeCurrent(i) == p[..1] + "." + p[1..]
  {
    CurrentFields(i);
    PlacesSplit(i, 1, 3);
    SplitAt(Places(Quot(i, 3), 1), ".", Places(i, 3));
  }

  /** Sequence fact proved unaided; a lemma only to keep the solver's work
      in `CurrentEchoPrefix` small. */
  lemma LinePrefix(s: string)
    requires |s| == 5
    ensures (s + "\n")[..5] == s
  {
  }

  /** The check `iset_func` performs: the first five bytes of the echo the
      device is expected to send back parse as the current that was set. */
  lemma CurrentEchoPrefix(i: int)
    requires 0 <= i < 10000
    ensures ParseReading((EncodeCurrent(i) + "\n")[..5], 3) == Some(i)
  {
    CurrentLayout(i);
    LinePrefix(EncodeCurrent(i));
    CurrentRoundTrip(i);
  }
}

=== FILE: lab.dfy ===
/** The `LABPS3005DN` driver of PS3005.py. Unlike `PSU`, it caches the raw
    set-point replies and repeats a setting command, refreshing the cache
    after every attempt, until the cache shows the setting took effect.

    The source loops without bound; here every loop takes a `fuel` bound and
    gives up with `OutOfFuel` once it is spent. */
module LabDriver {
  import opened Outcomes
  import opened Codec
  import opened Protocol
  import opened Plan

  /** The driver object: its port, the status reply, the raw `VSET1?` and
      `ISET1?` replies, the three flags and `self.df`. The source starts
      the cached attributes at None, and the constructor's `get_status`
      fills them. */
  datatype Lab<D> = Lab(
    port: Port<D>,
    status: string,
    setV: string,
    setI: string,
    flags: Flags,
    sequence: Option<seq<Row>>)

  /** `write_serial`. */
  function WriteSerial<D>(dev: Device<D>, lab: Lab<D>, c: Command): Lab<D> {
    lab.(port := Write(dev, lab.port, c))
  }

  /** The device after n `STATUS?` exchanges starting from d. */
  function Polled<D>(dev: Device<D>, d: D, n: nat): D
    decreases n
  {
    if n == 0 then d else Polled(dev, Exchange(dev, d, StatusQuery).0, n - 1)
  }

  /** The first n `STATUS?` exchanges from d all answer the empty line. */
  predicate Silent<D>(dev: Device<D>, d: D, n: nat) {
    forall k: nat :: k < n ==> Exchange(dev, Polled(dev, d, k), StatusQuery).1 == ""
  }

  /** The wait at the start of `get_status`: `STATUS?` until the reply is
      non-empty, at most `fuel` times. The value is how many were written:
      all replies before the last were empty, and the last is the status. */
  function AwaitStatus<D>(dev: Device<D>, lab: Lab<D>, fuel: nat): (r: Run<Lab<D>, nat>)
    ensures r.s == lab.(port := r.s.port, status := r.s.status)
    ensures r.Done? ==> |r.s.status| > 0 && 1 <= r.v <= fuel
    ensures r.Done? ==> r.s.port.sent == lab.port.sent + Copies(StatusQuery, r.v)
    ensures r.Done? ==> Silent(dev, lab.port.dev, r.v - 1) && r.s.port.dev == Polled(dev, lab.port.dev, r.v)
                        && r.s.status == Exchange(dev, Polled(dev, lab.port.dev, r.v - 1), StatusQuery).1
    ensures r.Failed? ==> r.fault == OutOfFuel
    decreases fuel
  {
    if fuel == 0 then Failed(lab, OutOfFuel)
    else
      var p := WriteSerial(dev, lab, StatusQuery);
      var (port, line) := ReadLine(dev, p.port);
      var q := p.(port := port, status := line);
      if |line| > 0 then Done(q, 1)
      else
        match AwaitStatus(dev, q, fuel - 1)
        case Failed(s, f) => Failed(s, f)
        case Done(s, n) =>
          Associative(lab.port.sent, [StatusQuery], Copies(StatusQuery, n));
          PolledStep(dev, lab.port.dev, n - 1);
          Done(s, n + 1)
  }

  /** One more empty reply in front of a silent wait. */
  lemma PolledStep<D>(dev: Device<D>, d: D, n: nat)
    requires Exchange(dev, d, StatusQuery).1 == ""
    requires Silent(dev, Exchange(dev, d, StatusQuery).0, n)
    ensures Silent(dev, d, n + 1)
    ensures Polled(dev, d, n + 1) == Polled(dev, Exchange(dev, d, StatusQuery).0, n)
  {
    var d' := Exchange(dev, d, StatusQuery).0;
    forall k: nat | k < n + 1
      ensures Exchange(dev, Polled(dev, d, k), StatusQuery).1 == ""
    {
      if k > 0 {
        assert Polled(dev, d, k) == Polled(dev, d', k - 1);
      }
    }
  }

  /** What a completed `get_status` writes when its wait took n queries. */
  function StatusRound(n: nat): seq<Command> {
    Copies(StatusQuery, n) + [VsetQuery, IsetQuery]
  }

  /** `get_status`: the wait, the three flags from the reply, then the raw
      `VSET1?` and `ISET1?` replies. A reply of one or two bytes raises
      after the flags it reached. The value is the length of the wait. */
  function GetStatus<D>(dev: Device<D>, lab: Lab<D>, fuel: nat): (r: Run<Lab<D>, nat>)
    ensures r.s.sequence == lab.sequence
    ensures r.Failed? ==> r.fault == OutOfFuel || (r.fault == ShortStatus && 0 < |r.s.status| < 3)
    ensures r.Done? ==> |r.s.status| >= 3
    ensures r.Done? ==> r.s.flags == Flags(FlagSet(r.s.status[0]), FlagSet(r.s.status[1]), FlagSet(r.s.status[2]))
    ensures r.Done? ==> 1 <= r.v <= fuel && r.s.port.sent == lab.port.sent + StatusRound(r.v)
    ensures r.Done? ==>
              var (d1, v) := Exchange(dev, Polled(dev, lab.port.dev, r.v), VsetQuery);
              var (d2, i) := Exchange(dev, d1, IsetQuery);
              Silent(dev, lab.port.dev, r.v - 1)
              && r.s.status == Exchange(dev, Polled(dev, lab.port.dev, r.v - 1), StatusQuery).1
              && r.s.setV == v && r.s.setI == i && r.s.port.dev == d2
  {
    var (w, n) :- AwaitStatus(dev, lab.(status := ""), fuel);
    match StatusFlags(w.flags, w.status)
    case Failed(f, e) => Failed(w.(flags := f), e)
    case Done(f, _) =>
      var (p, v) := ReadLine(dev, Write(dev, w.port, VsetQuery));
      var (q, i) := ReadLine(dev, Write(dev, p, IsetQuery));
      Associative(lab.port.sent, Copies(StatusQuery, n), [VsetQuery, IsetQuery]);
      Done(w.(port := q, flags := f, setV := v, setI := i), n)
  }

  /** The condition a setting loop runs until. */
  datatype Target =
    | VoltageEcho(echo: string)   // `self.set_v == v_string_comp`
    | CurrentEcho(echo: string)   // `self.set_i == i_string_comp`
    | Output(on: bool)            // `self.on`, or `not self.on`

  predicate Confirmed<D>(t: Target, lab: Lab<D>) {
    match t
    case VoltageEcho(e) => lab.setV == e
    case CurrentEcho(e) => lab.setI == e
    case Output(on) => lab.flags.on == on
  }

  /** One attempt of a setting loop: the command, then `get_status` with a
      wait of n queries. */
  function Round(c: Command, n: nat): seq<Command> {
    [c] + StatusRound(n)
  }

  /** The attempts of a setting loop, in order; ns are the lengths of their waits. */
  function Rounds(c: Command, ns: seq<nat>): seq<Command> {
    if ns == [] then [] else Round(c, ns[0]) + Rounds(c, ns[1..])
  }

  /** The driver after the attempts of a setting loop whose waits are ns,
      replayed from lab: every attempt begins with the target not holding,
      writes c and completes `get_status` with the next wait, and the target
      holds after the last. None when the waits cannot arise that way. */
  function Replay<D>(dev: Device<D>, t: Target, c: Command, lab: Lab<D>, fuel: nat, ns: seq<nat>): Option<Lab<D>>
    decreases |ns|
  {
    if ns == [] then (if Confirmed(t, lab) then Some(lab) else None)
    else if Confirmed(t, lab) || fuel == 0 then None
    else
      match GetStatus(dev, WriteSerial(dev, lab, c), fuel)
      case Failed(_, _) => None
      case Done(q, n) => if n == ns[0] then Replay(dev, t, c, q, fuel - 1, ns[1..]) else None
  }

  /** The loop shared by `vset`, `iset`, `output_on` and `output_off`:
      while the target does not hold, write c and call `get_status`. The
      value lists the wait lengths of the attempts, so every attempt is
      seen to write the same command. */
  function Retry<D>(dev: Device<D>, lab: Lab<D>, t: Target, c: Command, fuel: nat): (r: Run<Lab<D>, seq<nat>>)
    ensures r.s.sequence == lab.sequence
    ensures Confirmed(t, lab) ==> r == Done(lab, [])
    ensures r.Done? ==> Confirmed(t, r.s) && |r.v| <= fuel
    ensures r.Done? ==> r.s.port.sent == lab.port.sent + Rounds(c, r.v)
    ensures r.Done? ==> (r.v == [] <==> Confirmed(t, lab)) && Replay(dev, t, c, lab, fuel, r.v) == Some(r.s)
    ensures r.Failed? ==> r.fault == OutOfFuel || r.fault == ShortStatus
    decreases fuel
  {
    if Confirmed(t, lab) then Done(lab, [])
    else if fuel == 0 then Failed(lab, OutOfFuel)
    else
      var p := WriteSerial(dev, lab, c);
      match GetStatus(dev, p, fuel)
      case Failed(s, f) => Failed(s, f)
      case Done(q, n) =>
        match Retry(dev, q, t, c, fuel - 1)
        case Failed(s, f) => Failed(s, f)
        case Done(s, ns) =>
          assert ([n] + ns)[0] == n && ([n] + ns)[1..] == ns;
          Associative(lab.port.sent, [c], StatusRound(n));
          Associative(lab.port.sent, Round(c, n), Rounds(c, ns));
          Done(s, [n] + ns)
  }

  /** `vset`: rejects more than 30 V before writing anything, then writes
      `VSET1:dd.dd` until the cached `VSET1?` reply is the echo of v. */
  function Vset<D>(dev: Device<D>, lab: Lab<D>, v: int, fuel: nat): (r: Run<Lab<D>, seq<nat>>)
    ensures v > MaxVolts <==> r == Failed(lab, ValueTooLarge)
    ensures v <= MaxVolts && lab.setV == VoltageReply(v) ==> r == Done(lab, [])
    ensures r.Done? ==> r.s.setV == VoltageReply(v)
    ensures r.Done? ==> r.s.port.sent == lab.port.sent + Rounds(SetVoltage(v), r.v)
    ensures r.Done? ==> Replay(dev, VoltageEcho(VoltageReply(v)), SetVoltage(v), lab, fuel, r.v) == Some(r.s)
    ensures r.s.sequence == lab.sequence
  {
    if v > MaxVolts then Failed(lab, ValueTooLarge)
    else Retry(dev, lab, VoltageEcho(VoltageReply(v)), SetVoltage(v), fuel)
  }

  /** `iset`: rejects more than 5 A before writing anything, then writes
      `ISET1:d.ddd` until the cached `ISET1?` reply is the echo of i. */
  function Iset<D>(dev: Device<D>, lab: Lab<D>, i: int, fuel: nat): (r: Run<Lab<D>, seq<nat>>)
    ensures i > MaxAmps <==> r == Failed(lab, ValueTooLarge)
    ensures i <= MaxAmps && lab.setI == CurrentReply(i) ==> r == Done(lab, [])
    ensures r.Done? ==> r.s.setI == CurrentReply(i)
    ensures r.Done? ==> r.s.port.sent == lab.port.sent + Rounds(SetCurrent(i), r.v)
    ensures r.Done? ==> Replay(dev, CurrentEcho(CurrentReply(i)), SetCurrent(i), lab, fuel, r.v) == Some(r.s)
    ensures r.s.sequence == lab.sequence
  {
    if i > MaxAmps then Failed(lab, ValueTooLarge)
    else Retry(dev, lab, CurrentEcho(CurrentReply(i)), SetCurrent(i), fuel)
  }

  /** `output_on`: writes `OUTPUT1` until the cached flag says on. */
  function OutputOn<D>(dev: Device<D>, lab: Lab<D>, fuel: nat): (r: Run<Lab<D>, seq<nat>>)
    ensures lab.flags.on ==> r == Done(lab, [])
    ensures r.Done? ==> r.s.flags.on
    ensures r.Done? ==> r.s.port.sent == lab.port.sent + Rounds(Command.OutputOn, r.v)
    ensures r.Done? ==> Replay(dev, Output(true), Command.OutputOn, lab, fuel, r.v) == Some(r.s)
    ensures r.Failed? ==> r.fault != ValueTooLarge
    ensures r.s.sequence == lab.sequence
  {
    Retry(dev, lab, Output(true), Command.OutputOn, fuel)
  }

  /** `output_off`: writes `OUTPUT0` until the cached flag says off. */
  function OutputOff<D>(dev: Device<D>, lab: Lab<D>, fuel: nat): (r: Run<Lab<D>, seq<nat>>)
    ensures !lab.flags.on ==> r == Done(lab, [])
    ensures r.Done? ==> !r.s.flags.on
    ensures r.Done? ==> r.s.port.sent == lab.port.sent + Rounds(Command.OutputOff, r.v)
    ensures r.Done? ==> Replay(dev, Output(false), Command.OutputOff, lab, fuel, r.v) == Some(r.s)
    ensures r.Failed? ==> r.fault != ValueTooLarge
    ensures r.s.sequence == lab.sequence
  {
    Retry(dev, lab, Output(false), Command.OutputOff, fuel)
  }

  /** The condition the loop of a `follow_csv` call runs until. */
  function TargetOf(op: Op): Target {
    match op
    case Vset(v) => VoltageEcho(VoltageReply(v))
    case Iset(i) => CurrentEcho(CurrentReply(i))
    case On => Output(true)
  }

  /** What a `follow_csv` call leaves confirmed in the cache. */
  predicate Settled<D>(op: Op, lab: Lab<D>) {
    Confirmed(TargetOf(op), lab)
  }

  function Apply<D>(dev: Device<D>, lab: Lab<D>, op: Op, fuel: nat): (r: Run<Lab<D>, seq<nat>>)
    ensures !Admissible(op) <==> r == Failed(lab, ValueTooLarge)
    ensures r.Done? ==> Settled(op, r.s) && r.s.port.sent == lab.port.sent + Rounds(CommandOf(op), r.v)
    ensures r.Done? ==> (r.v == [] <==> Settled(op, lab))
    ensures r.Done? ==> Replay(dev, TargetOf(op), CommandOf(op), lab, fuel, r.v) == Some(r.s)
    ensures r.s.sequence == lab.sequence
  {
    match op
    case Vset(v) => Vset(dev, lab, v, fuel)
    case Iset(i) => Iset(dev, lab, i, fuel)
    case On => OutputOn(dev, lab, fuel)
  }

  /** The frames of completed calls, call k having made attempts whose
      waits are ws[k]. */
  function PlanRounds(ops: seq<Op>, ws: seq<seq<nat>>): seq<Command>
    requires |ws| == |ops|
  {
    if ops == [] then [] else Rounds(CommandOf(ops[0]), ws[0]) + PlanRounds(ops[1..], ws[1..])
  }

  /** The driver after calls whose attempts waited ws, replayed from lab:
      each call must pass its range check, and its attempts must replay
      from where the previous call left the driver. */
  function ReplayCalls<D>(dev: Device<D>, lab: Lab<D>, ops: seq<Op>, fuel: nat, ws: seq<seq<nat>>): Option<Lab<D>>
    requires |ws| == |ops|
    decreases |ops|
  {
    if ops == [] then Some(lab)
    else if !Admissible(ops[0]) then None
    else
      match Replay(dev, TargetOf(ops[0]), CommandOf(ops[0]), lab, fuel, ws[0])
      case None => None
      case Some(m) => ReplayCalls(dev, m, ops[1..], fuel, ws[1..])
  }

  lemma ReplayCallsCons<D>(dev: Device<D>, lab: Lab<D>, ops: seq<Op>, fuel: nat, w: seq<nat>, ws: seq<seq<nat>>, m: Lab<D>)
    requires ops != [] && |ws| == |ops| - 1 && Admissible(ops[0])
    requires Replay(dev, TargetOf(ops[0]), CommandOf(ops[0]), lab, fuel, w) == Some(m)
    ensures ReplayCalls(dev, lab, ops, fuel, [w] + ws) == ReplayCalls(dev, m, ops[1..], fuel, ws)
  {
    assert ([w] + ws)[0] == w && ([w] + ws)[1..] == ws;
  }

  lemma PlanRoundsCons(ops: seq<Op>, w: seq<nat>, ws: seq<seq<nat>>)
    requires ops != [] && |ws| == |ops| - 1
    ensures PlanRounds(ops, [w] + ws) == Rounds(CommandOf(ops[0]), w) + PlanRounds(ops[1..], ws)
  {
    assert ([w] + ws)[0] == w && ([w] + ws)[1..] == ws;
  }

  /** The calls one after another, stopping at the first exception. The
      value lists, call by call, the waits of its attempts. */
  function Execute<D>(dev: Device<D>, lab: Lab<D>, ops: seq<Op>, fuel: nat): (r: Run<Lab<D>, seq<seq<nat>>>)
    ensures r.Done? ==> AllAdmissible(ops)
    ensures r.Done? ==> |r.v| == |ops| && r.s.port.sent == lab.port.sent + PlanRounds(ops, r.v)
    ensures r.Done? ==> ReplayCalls(dev, lab, ops, fuel, r.v) == Some(r.s)
    ensures r.Done? && ops != [] ==> Settled(Last(ops), r.s)
    ensures r.s.sequence == lab.sequence
    decreases |ops|
  {
    if ops == [] then Done(lab, [])
    else
      match Apply(dev, lab, ops[0], fuel)
      case Failed(p, f) => Failed(p, f)
      case Done(p, w) =>
        var r := Execute(dev, p, ops[1..], fuel);
        LastOfTail(ops);
        match r
        case Failed(s, f) => Failed(s, f)
        case Done(s, ws) =>
          AdmissibleCons(ops);
          ReplayCallsCons(dev, lab, ops, fuel, w, ws, p);
          PlanRoundsCons(ops, w, ws);
          Associative(lab.port.sent, Rounds(CommandOf(ops[0]), w), PlanRounds(ops[1..], ws));
          Done(s, [w] + ws)
  }

  /** `follow_csv(repetitions)`: nothing at all without a loaded sequence;
      otherwise the opening calls and the passes over the rows. */
  function FollowCsv<D>(dev: Device<D>, lab: Lab<D>, repetitions: int, fuel: nat): (r: Run<Lab<D>, seq<seq<nat>>>)
    ensures lab.sequence.None? ==> r == Done(lab, [])
    ensures lab.sequence.Some? && r.Done? ==>
              var ops := CsvPlan(lab.sequence.value, repetitions);
              |r.v| == |ops| && r.s.port.sent == lab.port.sent + PlanRounds(ops, r.v)
              && ReplayCalls(dev, lab, ops, fuel, r.v) == Some(r.s)
    ensures lab.sequence.Some? && r.Done? ==>
              var rows := lab.sequence.value;
              if repetitions > 0 && rows != [] then r.s.setI == CurrentReply(rows[|rows| - 1].amps)
              else r.s.flags.on
  {
    match lab.sequence
    case None => Done(lab, [])
    case Some(rows) =>
      var ops := CsvPlan(rows, repetitions);
      CsvPlanLast(rows, repetitions);
      Execute(dev, lab, ops, fuel)
  }

  // ---------------------------------------------------------------------
  // Properties

  /** A setting loop that made no attempt found its target holding and
      left the driver as it was. */
  lemma ReplayNone<D>(dev: Device<D>, t: Target, c: Command, lab: Lab<D>, fuel: nat, s: Lab<D>)
    requires Replay(dev, t, c, lab, fuel, []) == Some(s)
    ensures s == lab && Confirmed(t, lab)
  {
  }

  /** Calls that made no attempt at all wrote nothing: every setting was
      already confirmed in the cache, and the driver is unchanged. */
  lemma {:induction false} QuietCalls<D>(dev: Device<D>, lab: Lab<D>, ops: seq<Op>, fuel: nat, ws: seq<seq<nat>>, s: Lab<D>)
    requires |ws| == |ops| && ReplayCalls(dev, lab, ops, fuel, ws) == Some(s)
    requires forall k :: 0 <= k < |ws| ==> ws[k] == []
    ensures s == lab && PlanRounds(ops, ws) == []
    ensures forall k :: 0 <= k < |ops| ==> Settled(ops[k], lab)
    decreases |ops|
  {
    if ops != [] {
      assert ws[0] == [];
      var m := Replay(dev, TargetOf(ops[0]), CommandOf(ops[0]), lab, fuel, ws[0]).value;
      ReplayNone(dev, TargetOf(ops[0]), CommandOf(ops[0]), lab, fuel, m);
      assert forall k :: 0 <= k < |ws[1..]| ==> ws[1..][k] == ws[k + 1];
      QuietCalls(dev, m, ops[1..], fuel, ws[1..], s);
      assert forall k :: 1 <= k < |ops| ==> ops[k] == ops[1..][k - 1];
    }
  }
}

=== FILE: lab_bench.dfy ===
/** The `LABPS3005DN` driver against the faithful instrument: every loop
    finishes after a single attempt, a setting the instrument already holds
    writes nothing, and `follow_csv` leaves the instrument with the output
    on and the final row's set points. */
module LabBench {
  import opened Outcomes
  import opened Protocol
  import opened Plan
  import opened LabDriver
  import B = Bench

  /** The driver's cache after `get_status` on an instrument in state b
      with the commands `sent` written so far. */
  function Synced(lab: Lab<B.Bench>, b: B.Bench, sent: seq<Command>): Lab<B.Bench> {
    lab.(port := Port(b, sent), status := B.StatusReply(b.flags),
         setV := VoltageReply(b.volts), setI := CurrentReply(b.amps), flags := b.flags)
  }

  /** The cache agrees with the instrument and nothing waits to be read. */
  predicate InSync(lab: Lab<B.Bench>) {
    lab == Synced(lab, lab.port.dev, lab.port.sent) && lab.port.dev.reply == ""
  }

  /** Synchronising overwrites every field an earlier synchronisation or a
      port change wrote. */
  lemma SyncedAgain(lab: Lab<B.Bench>, q: Port<B.Bench>, b: B.Bench, sent: seq<Command>, b': B.Bench, sent': seq<Command>)
    ensures Synced(Synced(lab, b, sent), b', sent') == Synced(lab, b', sent')
    ensures Synced(lab.(port := q), b', sent') == Synced(lab, b', sent')
  {
  }

  lemma SyncedInSync(lab: Lab<B.Bench>, b: B.Bench, sent: seq<Command>)
    requires b.reply == ""
    ensures InSync(Synced(lab, b, sent))
  {
  }

  /** A `follow_csv` call's setting leaves nothing to be read. */
  lemma AcceptClears(b: B.Bench, op: Op)
    ensures B.Accept(b, CommandOf(op)).reply == ""
  {
  }

  /** The instrument answers the first `STATUS?`, so the wait is one query long. */
  lemma AwaitStatusOnBench(lab: Lab<B.Bench>, fuel: nat)
    requires lab.port.dev.reply == "" && fuel >= 1
    ensures AwaitStatus(B.Faithful, lab, fuel)
            == Done(lab.(port := Port(lab.port.dev, lab.port.sent + [StatusQuery]),
                         status := B.StatusReply(lab.port.dev.flags)), 1)
  {
    assert Copies(StatusQuery, 1) == [StatusQuery];
  }

  /** `get_status` on the bench brings the cache in line with the
      instrument after a wait of one query. */
  lemma GetStatusOnBench(lab: Lab<B.Bench>, fuel: nat)
    requires lab.port.dev.reply == "" && fuel >= 1
    ensures GetStatus(B.Faithful, lab, fuel)
            == Done(Synced(lab, lab.port.dev, lab.port.sent + StatusRound(1)), 1)
  {
    var b := lab.port.dev;
    AwaitStatusOnBench(lab.(status := ""), fuel);
    var w := lab.(port := Port(b, lab.port.sent + [StatusQuery]), status := B.StatusReply(b.flags));
    assert AwaitStatus(B.Faithful, lab.(status := ""), fuel) == Done(w, 1);
    assert StatusFlags(w.flags, w.status) == Done(b.flags, ());
    assert Copies(StatusQuery, 1) == [StatusQuery];
    Associative(lab.port.sent, [StatusQuery], [VsetQuery, IsetQuery]);
  }

  /** A setting loop on the bench: nothing is written when the target
      already holds, otherwise one attempt takes the setting and confirms it. */
  lemma RetryOnBench(lab: Lab<B.Bench>, t: Target, c: Command, fuel: nat)
    requires lab.port.dev.reply == "" && B.Setter(c) && fuel >= 1
    requires Confirmed(t, Synced(lab, B.Accept(lab.port.dev, c), lab.port.sent))
    ensures Retry(B.Faithful, lab, t, c, fuel)
            == if Confirmed(t, lab) then Done(lab, [])
               else Done(Synced(lab, B.Accept(lab.port.dev, c), lab.port.sent + Round(c, 1)), [1])
  {
    if !Confirmed(t, lab) {
      var d := B.Accept(lab.port.dev, c);
      var p := WriteSerial(B.Faithful, lab, c);
      assert p.port == Port(d, lab.port.sent + [c]);
      GetStatusOnBench(p, fuel);
      var q := Synced(lab, d, p.port.sent + StatusRound(1));
      SyncedAgain(lab, p.port, d, p.port.sent, d, p.port.sent + StatusRound(1));
      assert GetStatus(B.Faithful, p, fuel) == Done(q, 1);
      assert Confirmed(t, q);
      assert Retry(B.Faithful, q, t, c, fuel - 1) == Done(q, []);
      Associative(lab.port.sent, [c], StatusRound(1));
      assert [1][1..] == [] && [1] + [] == [1];
      assert Rounds(c, [1]) == Round(c, 1) + Rounds(c, []);
    }
  }

  /** `vset` on the bench: when the instrument already holds v nothing is
      written; otherwise one `VSET1:` and one `get_status` set and confirm it. */
  lemma VsetOnBench(lab: Lab<B.Bench>, v: int, fuel: nat)
    requires InSync(lab) && v <= MaxVolts && fuel >= 1
    ensures var b := lab.port.dev;
            LabDriver.Vset(B.Faithful, lab, v, fuel)
            == if b.volts == v then Done(lab, [])
               else Done(Synced(lab, b.(volts := v), lab.port.sent + Round(SetVoltage(v), 1)), [1])
  {
    var b := lab.port.dev;
    RepliesDiffer(b.volts, v);
    B.AcceptSetting(b, v, 0);
    RetryOnBench(lab, VoltageEcho(VoltageReply(v)), SetVoltage(v), fuel);
  }

  /** `iset` on the bench, likewise. */
  lemma IsetOnBench(lab: Lab<B.Bench>, i: int, fuel: nat)
    requires InSync(lab) && i <= MaxAmps && fuel >= 1
    ensures var b := lab.port.dev;
            LabDriver.Iset(B.Faithful, lab, i, fuel)
            == if b.amps == i then Done(lab, [])
               else Done(Synced(lab, b.(amps := i), lab.port.sent + Round(SetCurrent(i), 1)), [1])
  {
    var b := lab.port.dev;
    RepliesDiffer(b.amps, i);
    B.AcceptSetting(b, 0, i);
    RetryOnBench(lab, CurrentEcho(CurrentReply(i)), SetCurrent(i), fuel);
  }

  /** `output_on` and `output_off` on the bench: nothing is written when
      the output is already as asked, otherwise one attempt switches it. */
  lemma OutputOnBench(lab: Lab<B.Bench>, fuel: nat)
    requires InSync(lab) && fuel >= 1
    ensures var b := lab.port.dev;
            && LabDriver.OutputOn(B.Faithful, lab, fuel)
               == (if b.flags.on then Done(lab, [])
                   else Done(Synced(lab, b.(flags := b.flags.(on := true)), lab.port.sent + Round(Command.OutputOn, 1)), [1]))
            && LabDriver.OutputOff(B.Faithful, lab, fuel)
               == (if !b.flags.on then Done(lab, [])
                   else Done(Synced(lab, b.(flags := b.flags.(on := false)), lab.port.sent + Round(Command.OutputOff, 1)), [1]))
  {
    B.AcceptSetting(lab.port.dev, 0, 0);
    RetryOnBench(lab, Output(true), Command.OutputOn, fuel);
    RetryOnBench(lab, Output(false), Command.OutputOff, fuel);
  }

  /** The instrument already holds the setting of a `follow_csv` call. */
  predicate Holds(b: B.Bench, op: Op) {
    match op
    case Vset(v) => b.volts == v
    case Iset(i) => b.amps == i
    case On => b.flags.on
  }

  /** With the cache in line, the cache confirms a setting exactly when the
      instrument holds it. */
  lemma HoldsSettled(lab: Lab<B.Bench>, op: Op)
    requires InSync(lab)
    ensures Settled(op, lab) <==> Holds(lab.port.dev, op)
  {
    var b := lab.port.dev;
    match op
    case Vset(v) => RepliesDiffer(b.volts, v);
    case Iset(i) => RepliesDiffer(b.amps, i);
    case On =>
  }

  /** The attempts of each call of a run on the instrument: none for a
      setting it already holds, otherwise one, answered at the first
      `STATUS?`. */
  function BenchWaits(b: B.Bench, ops: seq<Op>): (ws: seq<seq<nat>>)
    ensures |ws| == |ops|
    decreases |ops|
  {
    if ops == [] then []
    else [if Holds(b, ops[0]) then [] else [1]] + BenchWaits(B.Accept(b, CommandOf(ops[0])), ops[1..])
  }

  /** One `follow_csv` call on the bench: it completes, the instrument
      takes its setting, and it writes only when the setting is not yet held. */
  lemma ApplyOnBench(lab: Lab<B.Bench>, op: Op, fuel: nat)
    requires InSync(lab) && Admissible(op) && fuel >= 1
    ensures var r := LabDriver.Apply(B.Faithful, lab, op, fuel);
            && r.Done?
            && r.s == Synced(lab, B.Accept(lab.port.dev, CommandOf(op)), r.s.port.sent)
            && r.s.port.sent == lab.port.sent + (if Settled(op, lab) then [] else Round(CommandOf(op), 1))
            && r.v == (if Holds(lab.port.dev, op) then [] else [1])
  {
    var b := lab.port.dev;
    HoldsSettled(lab, op);
    B.AcceptSetting(b, 0, 0);
    match op
    case Vset(v) =>
      RepliesDiffer(b.volts, v);
      VsetOnBench(lab, v, fuel);
      B.AcceptSetting(b, v, 0);
    case Iset(i) =>
      RepliesDiffer(b.amps, i);
      IsetOnBench(lab, i, fuel);
      B.AcceptSetting(b, 0, i);
    case On =>
      OutputOnBench(lab, fuel);
  }

  /** The first call of a run completes on the bench and the rest start from its result. */
  lemma ExecuteStepOnBench(lab: Lab<B.Bench>, ops: seq<Op>, fuel: nat)
    requires InSync(lab) && ops != [] && Admissible(ops[0]) && fuel >= 1
    ensures var p := LabDriver.Apply(B.Faithful, lab, ops[0], fuel).s;
            && p == Synced(lab, B.Accept(lab.port.dev, CommandOf(ops[0])), p.port.sent)
            && var r := LabDriver.Execute(B.Faithful, lab, ops, fuel);
               var rest := LabDriver.Execute(B.Faithful, p, ops[1..], fuel);
               r.Done? == rest.Done? && r.s == rest.s
               && (r.Done? ==> r.v == [LabDriver.Apply(B.Faithful, lab, ops[0], fuel).v] + rest.v)
  {
    ApplyOnBench(lab, ops[0], fuel);
  }

  /** Calls that all pass the range checks all complete on the bench, the
      instrument ends up with their settings applied in order, the cache
      agrees with it, and each call made one attempt exactly when the
      instrument did not yet hold its setting. */
  lemma {:induction false} ExecuteOnBench(lab: Lab<B.Bench>, ops: seq<Op>, fuel: nat)
    requires InSync(lab) && AllAdmissible(ops) && fuel >= 1
    ensures var r := LabDriver.Execute(B.Faithful, lab, ops, fuel);
            && r.Done? && r.s == Synced(lab, B.Effects(lab.port.dev, B.Settings(ops)), r.s.port.sent)
            && r.v == BenchWaits(lab.port.dev, ops)
            && r.s.port.sent == lab.port.sent + PlanRounds(ops, BenchWaits(lab.port.dev, ops))
    decreases |ops|
  {
    if ops != [] {
      var b := lab.port.dev;
      var c := CommandOf(ops[0]);
      assert Admissible(ops[0]);
      ExecuteStepOnBench(lab, ops, fuel);
      ApplyOnBench(lab, ops[0], fuel);
      var p := LabDriver.Apply(B.Faithful, lab, ops[0], fuel).s;
      var w := if Holds(b, ops[0]) then [] else [1];
      assert BenchWaits(b, ops) == [w] + BenchWaits(B.Accept(b, c), ops[1..]);
      assert B.Settings(ops)[0] == c && B.Settings(ops)[1..] == B.Settings(ops[1..]);
      var e := B.Effects(B.Accept(b, c), B.Settings(ops[1..]));
      assert B.Effects(b, B.Settings(ops)) == e;
      if |ops| > 1 {
        assert AllAdmissible(ops[1..]) by {
          forall k | 0 <= k < |ops[1..]|
            ensures Admissible(ops[1..][k])
          {
            assert ops[1..][k] == ops[k + 1];
          }
        }
        AcceptClears(b, ops[0]);
        SyncedInSync(lab, B.Accept(b, c), p.port.sent);
        ExecuteOnBench(p, ops[1..], fuel);
        var r := LabDriver.Execute(B.Faithful, p, ops[1..], fuel);
        assert r.s == Synced(p, e, r.s.port.sent);
        SyncedAgain(lab, lab.port, B.Accept(b, c), p.port.sent, e, r.s.port.sent);
      } else {
        assert B.Settings(ops[1..]) == [];
        assert LabDriver.Execute(B.Faithful, p, ops[1..], fuel) == Done(p, []);
      }
    }
  }

  /** `follow_csv` on the bench with a sequence file within range: every
      call completes, the output ends up on, the instrument and the cache
      hold the final row's set points, and each call made one attempt
      exactly when the instrument did not yet hold its setting. */
  lemma FollowCsvOnBench(lab: Lab<B.Bench>, repetitions: int, fuel: nat)
    requires InSync(lab) && lab.sequence.Some? && RowsAdmissible(lab.sequence.value) && fuel >= 1
    ensures var b := lab.port.dev;
            var f := FinalRow(lab.sequence.value, repetitions);
            var r := LabDriver.FollowCsv(B.Faithful, lab, repetitions, fuel);
            var ops := CsvPlan(lab.sequence.value, repetitions);
            && r.Done? && r.s == Synced(lab, b.(volts := f.volts, amps := f.amps, flags := b.flags.(on := true)), r.s.port.sent)
            && r.v == BenchWaits(b, ops) && r.s.port.sent == lab.port.sent + PlanRounds(ops, BenchWaits(b, ops))
  {
    var rows := lab.sequence.value;
    CsvPlanAdmissible(rows, repetitions);
    ExecuteOnBench(lab, CsvPlan(rows, repetitions), fuel);
    B.CsvEffects(lab.port.dev, rows, repetitions);
  }
}

=== FILE: outcomes.dfy ===
/** Failure-compatible result types shared by both drivers. */
module Outcomes {

  datatype Option<+T> = None | Some(value: T)

  /** The exceptions the drivers raise, plus the model's own fuel exhaustion. */
  datatype Fault =
    | ValueTooLarge   // ValueError: a voltage above 30 V or a current above 5 A
    | ShortStatus     // IndexError: a status reply with fewer than three bytes
    | NotANumber      // ValueError: float() refused a device reply
    | OutOfFuel       // not raised by the drivers: the retry bound ran out where they would keep looping

  /** The outcome of a driver call. Like a Python object after an exception,
      a failed call still carries the state reached before the exception. */
  datatype Run<+S, +T> = Done(s: S, v: T) | Failed(s: S, fault: Fault) {

    predicate IsFailure() {
      Failed?
    }

    function PropagateFailure<U>(): Run<S, U>
      requires Failed?
    {
      Failed(s, fault)
    }

    /** The state and the returned value of a successful call. */
    function Extract(): (S, T)
      requires Done?
    {
      (s, v)
    }
  }
}

=== FILE: plan.dfy ===
/** The sequence of driver calls `follow_csv` makes for a loaded sequence
    file, independent of any device. Both drivers share it. */
module Plan {
  import opened Protocol

  /** One row of the sequence file: `Uset(V)` in 0.01 V and `Iset(A)` in
      0.001 A. The `Step` and `Duration(s)` columns are not kept: the
      source prints the one and sleeps on the other, and a `Step` that is
      not a number, or a duration that is negative or empty, raises there.
      A row here stands for one whose step and duration are valid. */
  datatype Row = Row(volts: int, amps: int)

  /** A driver call made by `follow_csv`: `vset`, `iset` or `output_on`. */
  datatype Op = Vset(volts: int) | Iset(amps: int) | On

  /** The highest voltage `vset` accepts, 30 V, in 0.01 V. Both drivers
      check it before writing anything. */
  const MaxVolts: int := 3000

  /** The highest current `iset` accepts, 5 A, in 0.001 A. */
  const MaxAmps: int := 5000

  /** A call the range checks of `vset` and `iset` let through; neither has a lower bound. */
  predicate Admissible(op: Op) {
    match op
    case Vset(v) => v <= MaxVolts
    case Iset(i) => i <= MaxAmps
    case On => true
  }

  /** The last call of a non-empty sequence. */
  function Last(ops: seq<Op>): Op
    requires ops != []
  {
    ops[|ops| - 1]
  }

  lemma LastOfTail(ops: seq<Op>)
    requires ops != []
    ensures |ops| > 1 ==> Last(ops[1..]) == Last(ops)
    ensures |ops| == 1 ==> Last(ops) == ops[0]
  {
  }

  /** Every call of a sequence passes the range checks. */
  predicate AllAdmissible(ops: seq<Op>) {
    forall k :: 0 <= k < |ops| ==> Admissible(ops[k])
  }

  /** Every row of a sequence file is within the range checks. */
  predicate RowsAdmissible(rows: seq<Row>) {
    forall j :: 0 <= j < |rows| ==> rows[j].volts <= MaxVolts && rows[j].amps <= MaxAmps
  }

  /** The setting command a call writes. */
  function CommandOf(op: Op): Command {
    match op
    case Vset(v) => SetVoltage(v)
    case Iset(i) => SetCurrent(i)
    case On => OutputOn
  }

  /** One pass over the rows: `vset(U)` then `iset(I)` for each row in file order. */
  function RowOps(rows: seq<Row>): (ops: seq<Op>)
    ensures |ops| == 2 * |rows|
  {
    if rows == [] then []
    else RowOps(rows[..|rows| - 1]) + [Vset(rows[|rows| - 1].volts), Iset(rows[|rows| - 1].amps)]
  }

  /** n passes of the same calls. */
  function Repeat(ops: seq<Op>, n: nat): seq<Op> {
    if n == 0 then [] else Repeat(ops, n - 1) + ops
  }

  /** How many times `for rep in range(repetitions)` runs. */
  function Times(repetitions: int): nat {
    if repetitions < 0 then 0 else repetitions
  }

  /** The calls of `follow_csv(repetitions)` once a sequence is loaded:
      `vset(0.0)`, `iset(0.0)`, `output_on()`, then the passes. */
  function CsvPlan(rows: seq<Row>, repetitions: int): seq<Op> {
    [Vset(0), Iset(0), On] + Repeat(RowOps(rows), Times(repetitions))
  }

  // ---------------------------------------------------------------------
  // Properties

  /** Row j is set by calls 2j (voltage) and 2j + 1 (current) of a pass. */
  lemma {:induction false} RowOpsAt(rows: seq<Row>)
    ensures forall j :: 0 <= j < |rows| ==>
              RowOps(rows)[2 * j] == Vset(rows[j].volts) && RowOps(rows)[2 * j + 1] == Iset(rows[j].amps)
  {
    if rows != [] {
      var init := rows[..|rows| - 1];
      RowOpsAt(init);
      forall j | 0 <= j < |rows|
        ensures RowOps(rows)[2 * j] == Vset(rows[j].volts) && RowOps(rows)[2 * j + 1] == Iset(rows[j].amps)
      {
        if j < |rows| - 1 {
          assert rows[j] == init[j];
        }
      }
    }
  }

  lemma {:induction false} RepeatAppend(ops: seq<Op>, a: nat, b: nat)
    ensures Repeat(ops, a + b) == Repeat(ops, a) + Repeat(ops, b)
    decreases b
  {
    if b > 0 {
      RepeatAppend(ops, a, b - 1);
    }
  }

  lemma {:induction false} RepeatLength(ops: seq<Op>, n: nat)
    ensures |Repeat(ops, n)| == n * |ops|
  {
    if n > 0 {
      RepeatLength(ops, n - 1);
    }
  }

  /** Pass k of n repeats the pass call for call. */
  lemma RepeatAt(ops: seq<Op>, n: nat, k: nat, j: nat)
    requires k < n && j < |ops|
    ensures k * |ops| + j < |Repeat(ops, n)| && Repeat(ops, n)[k * |ops| + j] == ops[j]
  {
    RepeatAppend(ops, k, n - k);
    RepeatAppend(ops, 1, n - k - 1);
    RepeatLength(ops, k);
    RepeatLength(ops, n);
    assert Repeat(ops, 1) == ops;
    var before := Repeat(ops, k);
    var after := Repeat(ops, n - k - 1);
    assert Repeat(ops, n) == before + (ops + after);
  }

  /** The plan holds the three opening calls and `repetitions` passes over
      the rows, and no call besides. */
  lemma CsvPlanLength(rows: seq<Row>, repetitions: int)
    ensures |CsvPlan(rows, repetitions)| == 3 + 2 * Times(repetitions) * |rows|
  {
    var ops := RowOps(rows);
    RowOpsAt(rows);
    RepeatLength(ops, Times(repetitions));
    assert Times(repetitions) * |ops| == 2 * Times(repetitions) * |rows|;
  }

  /** After the three opening calls, pass k sets row j with calls
      3 + 2(k|rows| + j) and 4 + 2(k|rows| + j), for every pass the
      repetition count asks for and every row in file order; and those
      passes are all the plan holds. */
  lemma CsvPlanAt(rows: seq<Row>, repetitions: int, k: nat, j: nat)
    requires k < repetitions && j < |rows|
    ensures var p := CsvPlan(rows, repetitions); var at := 3 + 2 * (k * |rows| + j);
            p[..3] == [Vset(0), Iset(0), On]
            && at + 1 < |p| && p[at] == Vset(rows[j].volts) && p[at + 1] == Iset(rows[j].amps)
            && |p| == 3 + 2 * Times(repetitions) * |rows|
  {
    var ops := RowOps(rows);
    RowOpsAt(rows);
    CsvPlanLength(rows, repetitions);
    RepeatAt(ops, Times(repetitions), k, 2 * j);
    RepeatAt(ops, Times(repetitions), k, 2 * j + 1);
    assert k * |ops| == 2 * (k * |rows|);
  }

  /** The last call of the plan: the current of the last row, or
      `output_on` when no pass sets a row. */
  lemma CsvPlanLast(rows: seq<Row>, repetitions: int)
    ensures var p := CsvPlan(rows, repetitions);
            |p| >= 3 && p[|p| - 1] == if repetitions > 0 && rows != [] then Iset(FinalRow(rows, repetitions).amps) else On
  {
    var ops := RowOps(rows);
    var n := Times(repetitions);
    if repetitions > 0 && rows != [] {
      assert Repeat(ops, n) == Repeat(ops, n - 1) + ops;
    } else {
      CsvPlanNoPass(rows, repetitions);
    }
  }

  /** The set points `follow_csv` ends on: the last row's once a pass runs,
      the opening zeros otherwise. */
  function FinalRow(rows: seq<Row>, repetitions: int): Row {
    if repetitions > 0 && rows != [] then rows[|rows| - 1] else Row(0, 0)
  }

  lemma {:induction false} RowOpsAdmissible(rows: seq<Row>)
    requires RowsAdmissible(rows)
    ensures AllAdmissible(RowOps(rows))
  {
    if rows != [] {
      var init := rows[..|rows| - 1];
      assert RowsAdmissible(init) by {
        forall j | 0 <= j < |init|
          ensures init[j].volts <= MaxVolts && init[j].amps <= MaxAmps
        {
          assert init[j] == rows[j];
        }
      }
      RowOpsAdmissible(init);
    }
  }

  /** A first call and the rest that pass the checks make a sequence that passes them. */
  lemma AdmissibleCons(ops: seq<Op>)
    requires ops != [] && Admissible(ops[0]) && AllAdmissible(ops[1..])
    ensures AllAdmissible(ops)
  {
    forall k | 1 <= k < |ops|
      ensures Admissible(ops[k])
    {
      assert ops[k] == ops[1..][k - 1];
    }
  }

  lemma {:induction false} RepeatAdmissible(ops: seq<Op>, n: nat)
    requires AllAdmissible(ops)
    ensures AllAdmissible(Repeat(ops, n))
  {
    if n > 0 {
      RepeatAdmissible(ops, n - 1);
    }
  }

  /** A sequence file within range gives a plan whose every call passes the range checks. */
  lemma CsvPlanAdmissible(rows: seq<Row>, repetitions: int)
    requires RowsAdmissible(rows)
    ensures AllAdmissible(CsvPlan(rows, repetitions))
  {
    RowOpsAdmissible(rows);
    RepeatAdmissible(RowOps(rows), Times(repetitions));
  }

  /** Without a pass the plan is only the three opening calls. */
  lemma CsvPlanNoPass(rows: seq<Row>, repetitions: int)
    requires repetitions <= 0 || rows == []
    ensures CsvPlan(rows, repetitions) == [Vset(0), Iset(0), On]
  {
    RepeatLength(RowOps(rows), Times(repetitions));
  }
}

=== FILE: protocol.dfy ===
/** The command language both drivers speak, the line terminator they append
    to every command, and a port that applies each written frame to an
    abstract device and records it in an append-only trace. */
module Protocol {
  import opened Outcomes
  import opened Codec

  /** `end_char`. The source writes it as a bytes literal with escaped
      backslashes, so on the wire it is four bytes: backslash, 'r',
      backslash, 'n'. */
  const EndChar: string := "\\r\\n"

  /** The commands the drivers send, before `write_serial` frames them. */
  datatype Command =
    | StatusQuery                 // STATUS?
    | VsetQuery                   // VSET1?
    | IsetQuery                   // ISET1?
    | VoutQuery                   // VOUT1?
    | OutputOn                    // OUTPUT1
    | OutputOff                   // OUTPUT0
    | SetVoltage(volts: int)      // VSET1:dd.dd, in 0.01 V
    | SetCurrent(amps: int)       // ISET1:d.ddd, in 0.001 A

  /** The bytes of a command as the drivers build them. */
  function Text(c: Command): string {
    match c
    case StatusQuery => "STATUS?"
    case VsetQuery => "VSET1?"
    case IsetQuery => "ISET1?"
    case VoutQuery => "VOUT1?"
    case OutputOn => "OUTPUT1"
    case OutputOff => "OUTPUT0"
    case SetVoltage(v) => "VSET1:" + EncodeVoltage(v)
    case SetCurrent(i) => "ISET1:" + EncodeCurrent(i)
  }

  /** How a device that understands this command language reads command bytes. */
  function Decode(t: string): (c: Option<Command>)
    ensures c.Some? ==> c.value.SetVoltage? || c.value.SetCurrent? || Text(c.value) == t
  {
    if t == "STATUS?" then Some(StatusQuery)
    else if t == "VSET1?" then Some(VsetQuery)
    else if t == "ISET1?" then Some(IsetQuery)
    else if t == "VOUT1?" then Some(VoutQuery)
    else if t == "OUTPUT1" then Some(OutputOn)
    else if t == "OUTPUT0" then Some(OutputOff)
    else if |t| >= 6 && t[..6] == "VSET1:" then
      match ParseFixed(t[6..], 2)
      case Some(v) => Some(SetVoltage(v))
      case None => None
    else if |t| >= 6 && t[..6] == "ISET1:" then
      match ParseFixed(t[6..], 3)
      case Some(i) => Some(SetCurrent(i))
      case None => None
    else None
  }

  /** What `write_serial` puts on the wire for a command. */
  function Frame(c: Command): string {
    Text(c) + EndChar
  }

  /** The command bytes inside a frame, if it ends with the terminator. */
  function Unframe(bytes: string): (t: Option<string>)
    ensures t.Some? ==> bytes == t.value + EndChar
  {
    if |bytes| >= |EndChar| && bytes[|bytes| - |EndChar|..] == EndChar then
      Some(bytes[..|bytes| - |EndChar|])
    else None
  }

  /** The instrument behind the serial port: how its state reacts to a
      command written to it, and the line (possibly empty, after a timeout)
      `read_until` returns next. The device is handed the command the frame
      carries: TextDecodes and UnframeFrame show the frame determines it. */
  datatype Device<!D> = Device(accept: (D, Command) -> D, answer: D -> (D, string))

  /** The serial connection: the device's state and every command written
      so far, oldest first. The bytes on the wire for a command c are Frame(c). */
  datatype Port<D> = Port(dev: D, sent: seq<Command>)

  /** `write_serial`: puts the framed command on the wire and records it. */
  function Write<D>(device: Device<D>, p: Port<D>, c: Command): (q: Port<D>)
    ensures q.sent == p.sent + [c]
  {
    Port(device.accept(p.dev, c), p.sent + [c])
  }

  /** `serial.read_until()`: the device's next line; nothing is written. */
  function ReadLine<D>(device: Device<D>, p: Port<D>): (r: (Port<D>, string))
    ensures r.0.sent == p.sent
  {
    var (d, line) := device.answer(p.dev);
    (Port(d, p.sent), line)
  }

  /** What the device does with a command written to it followed by
      `read_until`: its next state and the line it answers. */
  function Exchange<D>(device: Device<D>, d: D, c: Command): (D, string) {
    device.answer(device.accept(d, c))
  }

  /** The line `VSET1?` is answered with when the set voltage is v. */
  function VoltageReply(v: int): string {
    EncodeVoltage(v) + "\n"
  }

  /** The line `ISET1?` is answered with when the set current is i. */
  function CurrentReply(i: int): string {
    EncodeCurrent(i) + "\n"
  }

  /** The three flags of a status reply: constant-voltage mode, output on,
      over-current protection. */
  datatype Flags = Flags(cv: bool, on: bool, ocp: bool)

  /** A status byte reads as a set flag when it is 49, the character '1'. */
  predicate FlagSet(b: char) {
    b as int == 49
  }

  /** The flag assignments both drivers make from a status reply. Each flag
      is assigned before the next byte is indexed, so a reply shorter than
      three bytes raises with the flags it did reach updated. */
  function StatusFlags(f: Flags, status: string): (r: Run<Flags, ()>)
    ensures r.Done? <==> |status| >= 3
    ensures r.Failed? ==> r.fault == ShortStatus
    ensures r.s.cv == (if |status| > 0 then FlagSet(status[0]) else f.cv)
    ensures r.s.on == (if |status| > 1 then FlagSet(status[1]) else f.on)
    ensures r.s.ocp == (if |status| > 2 then FlagSet(status[2]) else f.ocp)
  {
    if |status| == 0 then Failed(f, ShortStatus)
    else
      var f := f.(cv := FlagSet(status[0]));
      if |status| == 1 then Failed(f, ShortStatus)
      else
        var f := f.(on := FlagSet(status[1]));
        if |status| == 2 then Failed(f, ShortStatus)
        else Done(f.(ocp := FlagSet(status[2])), ())
  }

  /** The three queries that refresh the cached status, in the order sent. */
  const Refresh: seq<Command> := [StatusQuery, VsetQuery, IsetQuery]

  /** n copies of a command. */
  function Copies(c: Command, n: nat): (s: seq<Command>)
    ensures |s| == n
  {
    if n == 0 then [] else [c] + Copies(c, n - 1)
  }

  // ---------------------------------------------------------------------
  // Properties

  lemma Associative<T>(a: seq<T>, b: seq<T>, c: seq<T>)
    ensures a + (b + c) == (a + b) + c
  {
  }

  lemma QueriesDecode()
    ensures Decode("STATUS?") == Some(StatusQuery) && Decode("VSET1?") == Some(VsetQuery)
    ensures Decode("ISET1?") == Some(IsetQuery) && Decode("VOUT1?") == Some(VoutQuery)
    ensures Decode("OUTPUT1") == Some(OutputOn) && Decode("OUTPUT0") == Some(OutputOff)
  {
    assert "VSET1?"[0] != "STATUS?"[0];
    assert "ISET1?"[0] != "VSET1?"[0];
    assert "VOUT1?"[1] != "VSET1?"[1] && "VOUT1?"[0] != "ISET1?"[0];
    assert "OUTPUT1"[0] != "STATUS?"[0];
    assert "OUTPUT0"[6] != "OUTPUT1"[6] && "OUTPUT0"[0] != "STATUS?"[0];
  }

  /** A set command whose argument parses is read back as that setting. */
  lemma DecodeSetting(prefix: string, e: string, x: int)
    requires prefix == "VSET1:" || prefix == "ISET1:"
    requires |e| >= 5 && ParseFixed(e, if prefix == "VSET1:" then 2 else 3) == Some(x)
    ensures Decode(prefix + e) == Some(if prefix == "VSET1:" then SetVoltage(x) else SetCurrent(x))
  {
    var t := prefix + e;
    assert t[..6] == prefix && t[6..] == e;
    assert "ISET1:"[0] != "VSET1:"[0];
  }

  lemma SetVoltageDecodes(v: int)
    ensures Decode(Text(SetVoltage(v))) == Some(SetVoltage(v))
  {
    VoltageRoundTrip(v);
    DecodeSetting("VSET1:", EncodeVoltage(v), v);
  }

  lemma SetCurrentDecodes(i: int)
    ensures Decode(Text(SetCurrent(i))) == Some(SetCurrent(i))
  {
    CurrentRoundTrip(i);
    DecodeSetting("ISET1:", EncodeCurrent(i), i);
  }

  /** Every command the drivers send is read back as that command. */
  lemma TextDecodes(c: Command)
    ensures Decode(Text(c)) == Some(c)
  {
    match c
    case SetVoltage(v) => SetVoltageDecodes(v);
    case SetCurrent(i) => SetCurrentDecodes(i);
    case _ => QueriesDecode();
  }

  /** Different set points give different replies, so comparing a reply
      with the expected one compares the set points. */
  lemma RepliesDiffer(a: int, b: int)
    ensures VoltageReply(a) == VoltageReply(b) <==> a == b
    ensures CurrentReply(a) == CurrentReply(b) <==> a == b
  {
    VoltageRoundTrip(a);
    VoltageRoundTrip(b);
    CurrentRoundTrip(a);
    CurrentRoundTrip(b);
  }

  /** The terminator is recognised and removed again. */
  lemma UnframeFrame(c: Command)
    ensures Unframe(Frame(c)) == Some(Text(c))
  {
    var f := Frame(c);
    assert f[|f| - |EndChar|..] == EndChar;
    assert f[..|f| - |EndChar|] == Text(c);
  }
}

=== FILE: psu.dfy ===
/** The `PSU` driver of PSU.py. Every call writes its command once and then
    refreshes the cached status with `STATUS?`, `VSET1?` and `ISET1?`;
    nothing is retried or confirmed. */
module PsuDriver {
  import opened Outcomes
  import opened Codec
  import opened Protocol
  import opened Plan

  /** The driver object: its port and the attributes `update_status`
      caches. `setV` and `setI` hold the floats `get_vset` and `get_iset`
      returned, in 0.01 V and 0.001 A; `sequence` is `self.df`. */
  datatype Psu<D> = Psu(
    port: Port<D>,
    status: string,
    setV: int,
    setI: int,
    flags: Flags,
    sequence: Option<seq<Row>>)

  /** A driver call as it goes, or went, on the wire: `after` is `before`
      followed by the first frames of `planned`, and all of them once the
      call completes. */
  predicate Follows(before: seq<Command>, after: seq<Command>, planned: seq<Command>) {
    |before| <= |after| <= |before| + |planned| && after == before + planned[..|after| - |before|]
  }

  /** A call that has written its first command follows the whole plan. */
  lemma FollowsCons(before: seq<Command>, c: Command, after: seq<Command>, rest: seq<Command>)
    requires Follows(before + [c], after, rest)
    ensures Follows(before, after, [c] + rest)
  {
    var k := |after| - |before| - 1;
    assert ([c] + rest)[..k + 1] == [c] + rest[..k];
    Associative(before, [c], rest[..k]);
  }

  /** A call stopped after its first command. */
  lemma FollowsFirst(before: seq<Command>, c: Command, rest: seq<Command>)
    ensures Follows(before, before + [c], [c] + rest)
  {
    assert ([c] + rest)[..1] == [c];
  }

  /** A call that stopped part way also stopped part way through any
      longer plan it begins. */
  lemma FollowsExtend(before: seq<Command>, after: seq<Command>, planned: seq<Command>, more: seq<Command>)
    requires Follows(before, after, planned)
    ensures Follows(before, after, planned + more)
  {
    assert (planned + more)[..|after| - |before|] == planned[..|after| - |before|];
  }

  /** Calls that went after a completed call follow the two plans joined. */
  lemma FollowsAfter(before: seq<Command>, done: seq<Command>, after: seq<Command>, planned: seq<Command>)
    requires Follows(before + done, after, planned)
    ensures Follows(before, after, done + planned)
  {
    var k := |after| - |before| - |done|;
    assert (done + planned)[..|done| + k] == done + planned[..k];
    Associative(before, done, planned[..k]);
  }

  /** `write_serial`. */
  function WriteSerial<D>(dev: Device<D>, psu: Psu<D>, c: Command): Psu<D> {
    psu.(port := Write(dev, psu.port, c))
  }

  /** A query followed by `read_until`. */
  function Query<D>(dev: Device<D>, psu: Psu<D>, c: Command): (r: (Psu<D>, string))
    ensures r.0.port.sent == psu.port.sent + [c]
    ensures r.0 == psu.(port := r.0.port)
    ensures (r.0.port.dev, r.1) == Exchange(dev, psu.port.dev, c)
  {
    var p := WriteSerial(dev, psu, c);
    var (port, line) := ReadLine(dev, p.port);
    (p.(port := port), line)
  }

  /** `get_status`: the raw status reply. */
  function GetStatus<D>(dev: Device<D>, psu: Psu<D>): (r: (Psu<D>, string))
    ensures r.0.port.sent == psu.port.sent + [StatusQuery]
    ensures r.0 == psu.(port := r.0.port)
    ensures (r.0.port.dev, r.1) == Exchange(dev, psu.port.dev, StatusQuery)
  {
    Query(dev, psu, StatusQuery)
  }

  /** A query whose reply `float()` reads, in 10^-places units; a reply
      `float()` refuses raises. */
  function ReadNumber<D>(dev: Device<D>, psu: Psu<D>, c: Command, places: nat): (r: Run<Psu<D>, int>)
    ensures r.s == psu.(port := r.s.port) && r.s.port.sent == psu.port.sent + [c]
    ensures r.Failed? ==> r.fault == NotANumber
    ensures var (d, line) := Exchange(dev, psu.port.dev, c);
      r.s.port.dev == d && ParseReading(line, places) == (if r.Done? then Some(r.v) else None)
  {
    var (p, line) := Query(dev, psu, c);
    match ParseReading(line, places)
    case Some(x) => Done(p, x)
    case None => Failed(p, NotANumber)
  }

  /** `get_vset`. */
  function GetVset<D>(dev: Device<D>, psu: Psu<D>): Run<Psu<D>, int> {
    ReadNumber(dev, psu, VsetQuery, 2)
  }

  /** `get_iset`. */
  function GetIset<D>(dev: Device<D>, psu: Psu<D>): Run<Psu<D>, int> {
    ReadNumber(dev, psu, IsetQuery, 3)
  }

  /** `get_vout`. */
  function GetVout<D>(dev: Device<D>, psu: Psu<D>): Run<Psu<D>, int> {
    ReadNumber(dev, psu, VoutQuery, 2)
  }

  /** The flag half of `update_status`, on the stored status reply. */
  function ReadFlags<D>(psu: Psu<D>, status: string): (r: Run<Psu<D>, ()>)
    ensures r.Done? <==> |status| >= 3
    ensures r.Failed? ==> r.fault == ShortStatus
    ensures r.s == psu.(status := status, flags := StatusFlags(psu.flags, status).s)
  {
    match StatusFlags(psu.flags, status)
    case Done(f, _) => Done(psu.(status := status, flags := f), ())
    case Failed(f, e) => Failed(psu.(status := status, flags := f), e)
  }

  /** The `get_vset` and `get_iset` half of `update_status`. */
  function ReadSetPoints<D>(dev: Device<D>, psu: Psu<D>): (r: Run<Psu<D>, ()>)
    ensures Follows(psu.port.sent, r.s.port.sent, [VsetQuery, IsetQuery]) && |r.s.port.sent| > |psu.port.sent|
    ensures r.Done? ==> r.s.port.sent == psu.port.sent + [VsetQuery, IsetQuery]
    ensures r.Failed? ==> r.fault == NotANumber
    ensures r.s.status == psu.status && r.s.sequence == psu.sequence
    ensures r.s.flags == psu.flags
    ensures var (d1, v) := Exchange(dev, psu.port.dev, VsetQuery);
      var (d2, i) := Exchange(dev, d1, IsetQuery);
      (r.Done? <==> ParseReading(v, 2).Some? && ParseReading(i, 3).Some?) &&
      (r.Done? ==> r.s.port.dev == d2 && Some(r.s.setV) == ParseReading(v, 2) && Some(r.s.setI) == ParseReading(i, 3))
  {
    match GetVset(dev, psu)
    case Failed(p, f) => Failed(p, f)
    case Done(p, v) =>
      match GetIset(dev, p.(setV := v))
      case Failed(q, f) => Failed(q, f)
      case Done(q, i) => Done(q.(setI := i), ())
  }

  /** `update_status`: `get_status`, the three flags, `get_vset`, `get_iset`. */
  function UpdateStatus<D>(dev: Device<D>, psu: Psu<D>): (r: Run<Psu<D>, ()>)
    ensures Follows(psu.port.sent, r.s.port.sent, Refresh) && |r.s.port.sent| > |psu.port.sent|
    ensures r.Done? ==> r.s.port.sent == psu.port.sent + Refresh
    ensures r.Done? ==> |r.s.status| >= 3 && r.s.flags == Flags(FlagSet(r.s.status[0]), FlagSet(r.s.status[1]), FlagSet(r.s.status[2]))
    ensures r.Failed? && r.fault == ShortStatus ==> |r.s.status| < 3 && r.s.port.sent == psu.port.sent + [StatusQuery]
    ensures r.s.sequence == psu.sequence
    ensures var (d0, status) := Exchange(dev, psu.port.dev, StatusQuery);
      var (d1, v) := Exchange(dev, d0, VsetQuery);
      var (d2, i) := Exchange(dev, d1, IsetQuery);
      r.s.status == status &&
      (r.Done? <==> |status| >= 3 && ParseReading(v, 2).Some? && ParseReading(i, 3).Some?) &&
      (r.Done? ==> r.s.port.dev == d2 && Some(r.s.setV) == ParseReading(v, 2) && Some(r.s.setI) == ParseReading(i, 3))
  {
    var (p, status) := GetStatus(dev, psu);
    assert Refresh == [StatusQuery] + [VsetQuery, IsetQuery];
    match ReadFlags(p, status)
    case Failed(q, f) =>
      FollowsFirst(psu.port.sent, StatusQuery, [VsetQuery, IsetQuery]);
      Failed(q, f)
    case Done(q, _) =>
      assert psu.port.sent + Refresh == q.port.sent + [VsetQuery, IsetQuery];
      var r := ReadSetPoints(dev, q);
      FollowsCons(psu.port.sent, StatusQuery, r.s.port.sent, [VsetQuery, IsetQuery]);
      r
  }

  /** The commands of a call that writes one command and refreshes. */
  function CallCommands(c: Command): seq<Command> {
    [c] + Refresh
  }

  /** Write a command, then `update_status`: the body shared by `vset`,
      `iset`, `output_on` and `output_off` once their checks pass. */
  function Setting<D>(dev: Device<D>, psu: Psu<D>, c: Command): (r: Run<Psu<D>, ()>)
    ensures Follows(psu.port.sent, r.s.port.sent, CallCommands(c)) && |r.s.port.sent| > |psu.port.sent|
    ensures r.Done? ==> r.s.port.sent == psu.port.sent + CallCommands(c)
    ensures r.s.sequence == psu.sequence
  {
    var p := WriteSerial(dev, psu, c);
    Associative(psu.port.sent, [c], Refresh);
    UpdateStatus(dev, p)
  }

  /** `vset`: rejects more than 30 V before writing anything; there is no lower bound. */
  function Vset<D>(dev: Device<D>, psu: Psu<D>, v: int): (r: Run<Psu<D>, ()>)
    ensures v > MaxVolts <==> r == Failed(psu, ValueTooLarge)
    ensures v <= MaxVolts ==> Follows(psu.port.sent, r.s.port.sent, CallCommands(SetVoltage(v))) && |r.s.port.sent| > |psu.port.sent|
    ensures r.Done? ==> r.s.port.sent == psu.port.sent + CallCommands(SetVoltage(v))
    ensures r.s.sequence == psu.sequence
  {
    if v > MaxVolts then Failed(psu, ValueTooLarge) else Setting(dev, psu, SetVoltage(v))
  }

  /** `iset`: rejects more than 5 A before writing anything; there is no lower bound. */
  function Iset<D>(dev: Device<D>, psu: Psu<D>, i: int): (r: Run<Psu<D>, ()>)
    ensures i > MaxAmps <==> r == Failed(psu, ValueTooLarge)
    ensures i <= MaxAmps ==> Follows(psu.port.sent, r.s.port.sent, CallCommands(SetCurrent(i))) && |r.s.port.sent| > |psu.port.sent|
    ensures r.Done? ==> r.s.port.sent == psu.port.sent + CallCommands(SetCurrent(i))
    ensures r.s.sequence == psu.sequence
  {
    if i > MaxAmps then Failed(psu, ValueTooLarge) else Setting(dev, psu, SetCurrent(i))
  }

  /** `output_on`. */
  function OutputOn<D>(dev: Device<D>, psu: Psu<D>): (r: Run<Psu<D>, ()>)
    ensures Follows(psu.port.sent, r.s.port.sent, CallCommands(Command.OutputOn)) && |r.s.port.sent| > |psu.port.sent|
    ensures r.Done? ==> r.s.port.sent == psu.port.sent + CallCommands(Command.OutputOn)
  {
    Setting(dev, psu, Command.OutputOn)
  }

  /** `output_off`. */
  function OutputOff<D>(dev: Device<D>, psu: Psu<D>): (r: Run<Psu<D>, ()>)
    ensures Follows(psu.port.sent, r.s.port.sent, CallCommands(Command.OutputOff)) && |r.s.port.sent| > |psu.port.sent|
    ensures r.Done? ==> r.s.port.sent == psu.port.sent + CallCommands(Command.OutputOff)
  {
    Setting(dev, psu, Command.OutputOff)
  }

  /** What the probing half of `find_voltage_battery` writes: limit the
      current, set the safe voltage, switch on only if the output was off,
      read the output voltage. */
  function ProbeCommands(on: bool, safe: int, checking: int): seq<Command> {
    CallCommands(SetCurrent(checking)) + CallCommands(SetVoltage(safe))
    + (if on then [] else CallCommands(Command.OutputOn)) + [VoutQuery]
  }

  /** What the restoring half writes: switch off only if the output was
      off, then put back the voltage and the current. */
  function RestoreCommands(on: bool, oldV: int, oldI: int): seq<Command> {
    (if on then [] else CallCommands(Command.OutputOff))
    + CallCommands(SetVoltage(oldV)) + CallCommands(SetCurrent(oldI))
  }

  /** The probing half of `find_voltage_battery`; `on` is the output flag
      cached when the call began. */
  function Probe<D>(dev: Device<D>, psu: Psu<D>, on: bool, safe: int, checking: int): (r: Run<Psu<D>, int>)
    ensures r.Done? ==> r.s.port.sent == psu.port.sent + ProbeCommands(on, safe, checking)
    ensures safe > MaxVolts || checking > MaxAmps ==> r.Failed?
    ensures r.s.sequence == psu.sequence
  {
    var limited :- Iset(dev, psu, checking);
    var probing :- Vset(dev, limited.0, safe);
    var powered :- if on then Done(probing.0, ()) else OutputOn(dev, probing.0);
    var volts :- GetVout(dev, powered.0);
    var a := CallCommands(SetCurrent(checking));
    var b := CallCommands(SetVoltage(safe));
    var c := if on then [] else CallCommands(Command.OutputOn);
    Associative(psu.port.sent, a, b);
    Associative(psu.port.sent + a, b, c);
    Associative(psu.port.sent, a + b, c);
    Associative(psu.port.sent, a + b + c, [VoutQuery]);
    Done(volts.0, volts.1)
  }

  /** Put back the voltage, then the current. */
  function PutBack<D>(dev: Device<D>, psu: Psu<D>, oldV: int, oldI: int): (r: Run<Psu<D>, ()>)
    ensures r.Done? ==> r.s.port.sent == psu.port.sent + CallCommands(SetVoltage(oldV)) + CallCommands(SetCurrent(oldI))
    ensures r.s.sequence == psu.sequence
  {
    var restoredV :- Vset(dev, psu, oldV);
    var restoredI :- Iset(dev, restoredV.0, oldI);
    Associative(psu.port.sent, CallCommands(SetVoltage(oldV)), CallCommands(SetCurrent(oldI)));
    Done(restoredI.0, ())
  }

  /** The restoring half of `find_voltage_battery`. */
  function Restore<D>(dev: Device<D>, psu: Psu<D>, on: bool, oldV: int, oldI: int): (r: Run<Psu<D>, ()>)
    ensures r.Done? ==> r.s.port.sent == psu.port.sent + RestoreCommands(on, oldV, oldI)
    ensures r.s.sequence == psu.sequence
  {
    var b := CallCommands(SetVoltage(oldV));
    var c := CallCommands(SetCurrent(oldI));
    if on then
      assert RestoreCommands(on, oldV, oldI) == b + c;
      PutBack(dev, psu, oldV, oldI)
    else
      var unpowered :- OutputOff(dev, psu);
      var restored :- PutBack(dev, unpowered.0, oldV, oldI);
      RestoreSplit(psu.port.sent, oldV, oldI);
      Done(restored.0, ())
  }

  /** With the output off beforehand, restoring is `output_off` followed by
      the two set points. */
  lemma RestoreSplit(sent: seq<Command>, oldV: int, oldI: int)
    ensures sent + RestoreCommands(false, oldV, oldI)
            == sent + CallCommands(Command.OutputOff) + CallCommands(SetVoltage(oldV)) + CallCommands(SetCurrent(oldI))
  {
    var a := CallCommands(Command.OutputOff);
    var b := CallCommands(SetVoltage(oldV));
    var c := CallCommands(SetCurrent(oldI));
    Associative(sent, a, b);
    Associative(sent, a + b, c);
  }

  /** `find_voltage_battery(safe_voltage, checking_current)`: read both set
      points, probe, then undo each step of the probe in reverse; the value
      is the output voltage read while probing. The defaults are 5 V and
      0.001 A. */
  function FindVoltageBattery<D>(dev: Device<D>, psu: Psu<D>, safe: int, checking: int): (r: Run<Psu<D>, int>)
    ensures safe > MaxVolts || checking > MaxAmps ==> r.Failed?
    ensures r.s.sequence == psu.sequence
  {
    var onBefore := psu.flags.on;
    var oldI :- GetIset(dev, psu);
    var oldV :- GetVset(dev, oldI.0);
    var volts :- Probe(dev, oldV.0, onBefore, safe, checking);
    var restored :- Restore(dev, volts.0, onBefore, oldV.1, oldI.1);
    Done(restored.0, volts.1)
  }

  /** The default arguments of `find_voltage_battery`: 5 V and 0.001 A. */
  const DefaultSafeVolts: int := 500
  const DefaultCheckingAmps: int := 1

  function Apply<D>(dev: Device<D>, psu: Psu<D>, op: Op): (r: Run<Psu<D>, ()>)
    ensures Admissible(op) ==> Follows(psu.port.sent, r.s.port.sent, CallCommands(CommandOf(op)))
    ensures r.Done? ==> Admissible(op) && r.s.port.sent == psu.port.sent + CallCommands(CommandOf(op))
    ensures !Admissible(op) <==> r == Failed(psu, ValueTooLarge)
    ensures Admissible(op) ==> |r.s.port.sent| > |psu.port.sent|
    ensures r.s.sequence == psu.sequence
  {
    match op
    case Vset(v) => Vset(dev, psu, v)
    case Iset(i) => Iset(dev, psu, i)
    case On => OutputOn(dev, psu)
  }

  /** The frames of a sequence of calls that all complete. */
  function PlanCommands(ops: seq<Op>): seq<Command> {
    if ops == [] then [] else CallCommands(CommandOf(ops[0])) + PlanCommands(ops[1..])
  }

  /** The calls one after another, stopping at the first exception. */
  function Execute<D>(dev: Device<D>, psu: Psu<D>, ops: seq<Op>): (r: Run<Psu<D>, ()>)
    ensures Follows(psu.port.sent, r.s.port.sent, PlanCommands(ops))
    ensures r.Done? ==> r.s.port.sent == psu.port.sent + PlanCommands(ops)
    ensures r.Done? ==> forall k :: 0 <= k < |ops| ==> Admissible(ops[k])
    ensures r.s.sequence == psu.sequence
    decreases |ops|
  {
    if ops == [] then Done(psu, ())
    else
      match Apply(dev, psu, ops[0])
      case Failed(p, f) =>
        FollowsExtend(psu.port.sent, p.port.sent, CallCommands(CommandOf(ops[0])), PlanCommands(ops[1..]));
        Failed(p, f)
      case Done(p, _) =>
        var r := Execute(dev, p, ops[1..]);
        FollowsAfter(psu.port.sent, CallCommands(CommandOf(ops[0])), r.s.port.sent, PlanCommands(ops[1..]));
        Associative(psu.port.sent, CallCommands(CommandOf(ops[0])), PlanCommands(ops[1..]));
        r
  }

  /** `follow_csv(repetitions)`: nothing at all without a loaded sequence. */
  function FollowCsv<D>(dev: Device<D>, psu: Psu<D>, repetitions: int): (r: Run<Psu<D>, ()>)
    ensures psu.sequence.None? ==> r == Done(psu, ())
    ensures psu.sequence.Some? ==>
              Follows(psu.port.sent, r.s.port.sent, PlanCommands(CsvPlan(psu.sequence.value, repetitions)))
    ensures psu.sequence.Some? && r.Done? ==>
              r.s.port.sent == psu.port.sent + PlanCommands(CsvPlan(psu.sequence.value, repetitions))
  {
    match psu.sequence
    case None => Done(psu, ())
    case Some(rows) => Execute(dev, psu, CsvPlan(rows, repetitions))
  }

  // ---------------------------------------------------------------------
  // Properties

  /** Every call contributes four frames: its command and the refresh. */
  lemma {:induction false} PlanCommandsLength(ops: seq<Op>)
    ensures |PlanCommands(ops)| == 4 * |ops|
    decreases |ops|
  {
    if ops != [] {
      PlanCommandsLength(ops[1..]);
    }
  }
}
